=== FILE: README.md ===
# Combining and filtering Cell Painting profiles, in Dafny

This project models the first two steps of the DEX/DMSO analysis pipeline of the OASIS circadian
rhythm study.

- **The profile combiner** (`00_process_profiles.py`):
  - Every directory under the profiles root is a batch. Its `*.csv.gz` files are the plate tables.
  - Each plate's id comes from its file name, and its number from that id with "BR" removed.
  - The lowest plate number of a batch gets media "DMSO" and the highest "DEX". Each table is tagged
    with its batch, plate and media, and all the tables are stacked.
  - The stacked profiles are left-joined with the compound identity table on the batch id.
  - A compound label is built: "NegCon" for negative controls, otherwise the preferred name, else
    the OASIS id, else the batch id. A treatment label "<compound>_<media>" is also added.
  - The `Metadata_` columns are moved to the front.
- **The feature selector** (`01_feature_selection.py`):
  - It drops the `Image` columns and lets pycytominer's feature selection choose among the rest.
  - It then drops every column that still has a missing value, unless the column's name mentions
    "Metadata".

A table is modelled column by column (`Frames.Frame`): a height and a list of named columns of
cells. A cell is missing (`None`) or holds a value. A value is text, or a measurement represented
by its rendering as a string. Every exception raised by the modelled steps of the combiner is an
`Error` value.

Modules:

- `Wrappers`: `Option` and `Result`.
- `Text`: the string operations the scripts use. These are `startswith`, `in`, `split("_")[0]`,
  `replace("BR", "")`, `rfind` and `int()` of a decimal numeral.
- `Frames`: the pandas operations. These are column assignment, column selection and `concat`.
- `Columns`: the column names and the error values.
- `Plates`: plate ids, plate numbers and the media map.
- `Profiles`: the two loops that build `dfs`, and the concatenation.
- `Join`: the merge with the identity table.
- `Labels`: the compound and treatment labels.
- `Reorder`: the metadata-first column order.
- `Combiner`: `main` of the combiner, from the directory listing to the written frame.
- `FeatureSelection`: the feature selector.

The loops of the combiner and its in-place compound updates are methods. Each method is proved
equal to the function that specifies it:

- `Profiles.CollectFrames` and `Profiles.TagPlateFiles` for the loops;
- `Labels.SetCompound` and `Labels.LabelCompounds` for the compound and treatment updates;
- `Combiner.ProcessProfiles` for the whole of `main`.

Two places where the model follows the code rather than its description:

- An empty batch directory stops the combiner at `min()` of an empty list (`Profiles.BatchEmpty`).
  It does not get as far as an empty concatenation.
- The comment on line 24 calls the larger plate's media "DMSO_DEX", but the code writes "DEX", and
  so does the model.

## Model

| member | source | states |
|---|---|---|
| Plates.StemOfProfileFile | 00.compare_dex_dmso/1_analysis/00_process_profiles.py:21 | the stem of a "*.csv.gz" name is the name without its final ".gz" |
| Plates.PlateId | 00.compare_dex_dmso/1_analysis/00_process_profiles.py:21 | the plate id has no underscore, is a prefix of the stem, and is followed in the stem by an underscore when it is shorter |
| Plates.PlateIdOfFile | 00.compare_dex_dmso/1_analysis/00_process_profiles.py:21 | a file "<id>_<rest>.csv.gz" with an underscore-free id belongs to plate <id> |
| Plates.PlateNumberOfBarcode | 00.compare_dex_dmso/1_analysis/00_process_profiles.py:22 | "BR" followed by any number of zeros and the decimal numeral of n parses to n |
| Plates.DropBRKeeps | 00.compare_dex_dmso/1_analysis/00_process_profiles.py:22 | each character at a position of the id that is neither B nor R still occurs in the id with "BR" removed |
| Plates.DropBRKeepsOthers | 00.compare_dex_dmso/1_analysis/00_process_profiles.py:22 | removing "BR" removes only B's and R's: the characters other than B and R are the same, in the same order and as often, before and after |
| Plates.FileWithoutUnderscoreFails | 00.compare_dex_dmso/1_analysis/00_process_profiles.py:21-22 | a plate file whose name has no underscore keeps ".csv" in its id, so `int()` fails on it |
| Plates.PlateNumbers | 00.compare_dex_dmso/1_analysis/00_process_profiles.py:22 | succeeds exactly when every id parses, giving each id's number in order; otherwise it reports the first id that does not parse |
| Plates.MinOf | 00.compare_dex_dmso/1_analysis/00_process_profiles.py:25 | the result is an element of the list and at most every element |
| Plates.MaxOf | 00.compare_dex_dmso/1_analysis/00_process_profiles.py:25 | the result is an element of the list and at least every element |
| Plates.MediaMap | 00.compare_dex_dmso/1_analysis/00_process_profiles.py:25 | the media map exists exactly when the batch has a plate number |
| Plates.MediaByRank | 00.compare_dex_dmso/1_analysis/00_process_profiles.py:25 | the highest number is DEX; the lowest is DMSO when some number is higher; a number strictly between two others has no media |
| Plates.MediaMapOrderFree | 00.compare_dex_dmso/1_analysis/00_process_profiles.py:19-25 | the media map depends only on the set of plate numbers, not on the listing order |
| Plates.TwoPlates | 00.compare_dex_dmso/1_analysis/00_process_profiles.py:24-25 | of two plates the lower number is DMSO and the higher DEX, whichever file comes first |
| Plates.SinglePlate | 00.compare_dex_dmso/1_analysis/00_process_profiles.py:25 | a lone plate is both min and max and ends up DEX |
| Text.DropBRSinglePass | 00.compare_dex_dmso/1_analysis/00_process_profiles.py:22 | the removal of "BR" is a single pass: "BBRR" becomes "BR" |
| Text.DropBRAppend | 00.compare_dex_dmso/1_analysis/00_process_profiles.py:22 | removing "BR" works piece by piece: cut after a character other than B, each part is cleaned on its own |
| Text.ParseShowDecimal | 00.compare_dex_dmso/1_analysis/00_process_profiles.py:22 | `int()` of the decimal numeral of n is n |
| Profiles.TagPlate | 00.compare_dex_dmso/1_analysis/00_process_profiles.py:29-33 | the tagged table has the plate's height and batch, plate and media columns filled with its tags in every row |
| Profiles.TagPlateKeeps | 00.compare_dex_dmso/1_analysis/00_process_profiles.py:29-33 | every column of the plate table other than the three tags is kept unchanged, and no other column appears |
| Profiles.TagPlatesResult | 00.compare_dex_dmso/1_analysis/00_process_profiles.py:27-34 | the first j plates are tagged exactly when each of their numbers has a media, and then plate k gets the batch name, its id and its number's media |
| Profiles.TagPlatesErrorStays | 00.compare_dex_dmso/1_analysis/00_process_profiles.py:27-34 | once a plate has no media, the later plates do not change the outcome |
| Profiles.NoMediaOnly | 00.compare_dex_dmso/1_analysis/00_process_profiles.py:32 | the only failure of the inner loop is a plate number without media (the KeyError) |
| Profiles.BatchBadId | 00.compare_dex_dmso/1_analysis/00_process_profiles.py:22 | a batch directory with a plate id that is not a number fails with a bad-plate-id error |
| Profiles.BatchEmpty | 00.compare_dex_dmso/1_analysis/00_process_profiles.py:25 | a batch directory without plate files fails on the minimum of no numbers |
| Profiles.BatchMiddlePlate | 00.compare_dex_dmso/1_analysis/00_process_profiles.py:25-32 | a batch with a plate number strictly between two others fails for want of media |
| Profiles.BatchOk | 00.compare_dex_dmso/1_analysis/00_process_profiles.py:15-34 | a batch that goes through has every id numbered and at least one plate; each plate is tagged in order with the batch name and its id, and with DEX if its number is the largest, otherwise with DMSO and its number is the smallest |
| Profiles.BatchTagged | 00.compare_dex_dmso/1_analysis/00_process_profiles.py:15-34 | conversely, a batch directory with numbered plate ids and at least one plate goes through when each plate's number is the largest or the smallest of the batch |
| Profiles.ChainOk | 00.compare_dex_dmso/1_analysis/00_process_profiles.py:14-34 | the loop over entries goes through exactly when every entry does |
| Profiles.ChainFirstError | 00.compare_dex_dmso/1_analysis/00_process_profiles.py:14-34 | a failed run reports the error of one of its entries |
| Profiles.ChainErrorStays | 00.compare_dex_dmso/1_analysis/00_process_profiles.py:14-34 | entries after a failing one do not change the outcome |
| Profiles.TagBatch | 00.compare_dex_dmso/1_analysis/00_process_profiles.py:15-26 | the body of the outer loop for one entry computes that entry's tagged tables or its error (a non-directory contributes nothing) |
| Profiles.TagPlateFiles | 00.compare_dex_dmso/1_analysis/00_process_profiles.py:27-34 | the inner loop computes the batch's tagged tables in file order, or the missing-media error |
| Profiles.CollectFrames | 00.compare_dex_dmso/1_analysis/00_process_profiles.py:12-34 | the two loops compute `dfs`: every entry's tables in listing order, or the first error |
| Profiles.TaggedFramesOutcome | 00.compare_dex_dmso/1_analysis/00_process_profiles.py:14-34 | `dfs` is built exactly when every batch directory goes through; otherwise the error is a failing batch's error |
| Profiles.TaggedFramesContents | 00.compare_dex_dmso/1_analysis/00_process_profiles.py:14-34 | a built `dfs` holds one table per plate file of every batch directory, in loop order, each tagged with its own tags |
| Profiles.TaggedFramesHeight | 00.compare_dex_dmso/1_analysis/00_process_profiles.py:14-34 | tagging adds and loses no row: `dfs` has as many rows as the plate files |
| Profiles.Combine | 00.compare_dex_dmso/1_analysis/00_process_profiles.py:36 | the concatenation fails exactly on an empty list; otherwise it has as many rows as the tables together |
| Profiles.CombinedRowsTagged | 00.compare_dex_dmso/1_analysis/00_process_profiles.py:29-36 | row i of the k-th tagged table is row offset(k)+i of the concatenation and carries that table's batch, plate and media |
| Frames.Concat | 00.compare_dex_dmso/1_analysis/00_process_profiles.py:36 | the concatenation has the union of the column names, the total height, and each column stacks the tables' cells, missing where a table lacks it |
| Frames.ConcatRow | 00.compare_dex_dmso/1_analysis/00_process_profiles.py:36 | row i of the k-th table is row offset(k)+i of the concatenation, in every column that table has |
| Frames.ConcatColumnOrder | 00.compare_dex_dmso/1_analysis/00_process_profiles.py:36 | the columns come in order of first appearance in the tables' column lists read one after the other: the first table's columns lead in their order, each later table's new columns follow in order of first appearance, and the first table's columns are all the columns when no later table brings a new one |
| Frames.AddNewOrder | 00.compare_dex_dmso/1_analysis/00_process_profiles.py:36 | adding a list of names to the names gathered so far appends only names not yet gathered, each taken from the list, in the order of their first appearance in it |
| Frames.UnionNamesFlat | 00.compare_dex_dmso/1_analysis/00_process_profiles.py:36 | gathering names table by table is the same as gathering them from all the tables' column lists joined end to end |
| Frames.Assign | 00.compare_dex_dmso/1_analysis/00_process_profiles.py:54-58 | after `df[name] = cells` the column reads `cells`, and every other column is kept and no other appears |
| Frames.AssignTwice | 00.compare_dex_dmso/1_analysis/00_process_profiles.py:54-57 | of two assignments to the same column only the second is seen, and the column keeps its place |
| Join.MatchesComplete | 00.compare_dex_dmso/1_analysis/00_process_profiles.py:47-51 | every identity row with a row's key is among that row's matches |
| Join.JoinLinksSound | 00.compare_dex_dmso/1_analysis/00_process_profiles.py:47-51 | every row of the join pairs a profile row with an identity row of the same batch id, or with nothing when none has it |
| Join.JoinLinksComplete | 00.compare_dex_dmso/1_analysis/00_process_profiles.py:47-51 | every matching pair appears in the join, and so does every profile row with no match |
| Join.JoinLinksOrdered | 00.compare_dex_dmso/1_analysis/00_process_profiles.py:47-51 | the join keeps the order of the profile rows, and the identity order among the matches of a row |
| Join.JoinLinksUnique | 00.compare_dex_dmso/1_analysis/00_process_profiles.py:47-51 | with unique batch ids in the identity table, the k-th row of the join comes from the k-th profile row |
| Join.LeftJoin | 00.compare_dex_dmso/1_analysis/00_process_profiles.py:47-51 | the merge fails exactly when the batch id column is missing or an identity column already exists |
| Join.LeftJoinColumns | 00.compare_dex_dmso/1_analysis/00_process_profiles.py:38-51 | the joined frame has one row per join link; its columns are the profile columns, each picked through the links, then the OASIS id and preferred name of each link's identity |
| Join.LeftJoinKeepsRows | 00.compare_dex_dmso/1_analysis/00_process_profiles.py:47-51 | with unique batch ids the join keeps the height and every profile column unchanged |
| Join.LeftJoinGet | 00.compare_dex_dmso/1_analysis/00_process_profiles.py:47-51 | with unique batch ids in the identity table, each profile column reads the same after the join |
| Join.LeftJoinHas | 00.compare_dex_dmso/1_analysis/00_process_profiles.py:47-51 | the only columns the join adds are the two identity columns |
| Join.LeftJoinMatched | 00.compare_dex_dmso/1_analysis/00_process_profiles.py:38-51 | with unique batch ids in the identity table, a profile row whose batch id is the j-th identity's gets that identity's OASIS id and preferred name |
| Join.LeftJoinUnmatched | 00.compare_dex_dmso/1_analysis/00_process_profiles.py:47-51 | with unique batch ids in the identity table, a profile row whose batch id matches no identity gets a missing OASIS id and preferred name |
| Join.JoinLinksDistinct | 00.compare_dex_dmso/1_analysis/00_process_profiles.py:47-51 | no pair of profile row and identity row, and no unmatched row, appears twice in the join |
| Join.MatchLinkedOnce | 00.compare_dex_dmso/1_analysis/00_process_profiles.py:47-51 | each identity matching a profile row is paired with it exactly once |
| Join.UnmatchedLinkedOnce | 00.compare_dex_dmso/1_analysis/00_process_profiles.py:47-51 | a profile row that no identity matches gives exactly one row of the join, paired with no identity |
| Join.LeftJoinRow | 00.compare_dex_dmso/1_analysis/00_process_profiles.py:47-51 | whatever the identity table, row k of the joined frame holds in every profile column the cell of the profile row its link names |
| Join.LeftJoinIdentityRow | 00.compare_dex_dmso/1_analysis/00_process_profiles.py:38-51 | whatever the identity table, row k of the joined frame holds the OASIS id and preferred name of the identity its link names, or missing cells |
| Join.LeftJoinMatchedOnce | 00.compare_dex_dmso/1_analysis/00_process_profiles.py:38-51 | whatever the identity table, each identity whose batch id a profile row has gives exactly one joined row, with that identity's OASIS id and preferred name |
| Join.LeftJoinUnmatchedOnce | 00.compare_dex_dmso/1_analysis/00_process_profiles.py:47-51 | whatever the identity table, a profile row that no identity matches gives exactly one joined row, with a missing OASIS id and preferred name |
| Labels.FirstAbsent | 00.compare_dex_dmso/1_analysis/00_process_profiles.py:54-59 | names the first column the labels need that is missing, or none when all are present |
| Labels.LabelInputs | 00.compare_dex_dmso/1_analysis/00_process_profiles.py:54-59 | the columns are read in the order preferred name, control type, OASIS id, batch id, media; the labels fail on none of them exactly when all five exist |
| Labels.CompoundOf | 00.compare_dex_dmso/1_analysis/00_process_profiles.py:54-57 | a negative control is "NegCon"; the label is missing only when the row is not a negative control and has no name, no OASIS id and no batch id |
| Labels.CompoundPreference | 00.compare_dex_dmso/1_analysis/00_process_profiles.py:54-57 | the definition of `CompoundOf` spelled out case by case for a row that is not a negative control: its preferred name first, then its OASIS id, then its batch id (the link to the four column statements is `Labels.CompoundSteps`) |
| Labels.TreatmentLabel | 00.compare_dex_dmso/1_analysis/00_process_profiles.py:58-60 | when the media text has no underscore, splitting the label at its last underscore gives back the compound and media texts |
| Labels.TreatmentSplits | 00.compare_dex_dmso/1_analysis/00_process_profiles.py:58-60 | for media DMSO and DEX the treatment label splits back into compound and media |
| Labels.Labelled | 00.compare_dex_dmso/1_analysis/00_process_profiles.py:54-60 | labelling fails exactly when an input column is missing, with the first one missing; otherwise it keeps the height |
| Labels.LabelledColumns | 00.compare_dex_dmso/1_analysis/00_process_profiles.py:54-60 | the compound and treatment columns hold the labels of each row, every other column is kept, and the two names are appended if new |
| Labels.CompoundSteps | 00.compare_dex_dmso/1_analysis/00_process_profiles.py:54-57 | the four statements, applied column-wise in turn, give the compound label of every row |
| Labels.SetCompound | 00.compare_dex_dmso/1_analysis/00_process_profiles.py:54-57 | the four in-place updates fail exactly when one of their columns is missing; otherwise only the compound column changes, to the labels |
| Labels.LabelCompounds | 00.compare_dex_dmso/1_analysis/00_process_profiles.py:53-60 | the in-place updates compute the labelled frame |
| Reorder.MetadataFirst | 00.compare_dex_dmso/1_analysis/00_process_profiles.py:62-65 | the reordered frame is a permutation of the columns with every metadata column before every other, and each group in its original order |
| Reorder.MetadataFirstIdempotent | 00.compare_dex_dmso/1_analysis/00_process_profiles.py:62-65 | reordering an already reordered frame changes nothing |
| Reorder.MetadataFirstKeepsColumns | 00.compare_dex_dmso/1_analysis/00_process_profiles.py:62-65 | every column reads the same after the reordering, so no row changes |
| Combiner.ProcessProfiles | 00.compare_dex_dmso/1_analysis/00_process_profiles.py:7-65 | `main`, step by step, computes the combined frame or the exception that stops it |
| Combiner.NoPlatesNothingToConcat | 00.compare_dex_dmso/1_analysis/00_process_profiles.py:36 | a listing without a plate file, whose batches all go through, stops at the concatenation |
| Combiner.CombinedStacked | 00.compare_dex_dmso/1_analysis/00_process_profiles.py:12-36 | a run that goes through stacked at least one table, and the stacked frame is the concatenation of every plate table tagged in loop order |
| Combiner.FinishKeeps | 00.compare_dex_dmso/1_analysis/00_process_profiles.py:47-65 | with unique batch ids in the identity table, a stacked column that the join and labels do not write reaches the output unchanged |
| Combiner.FinishLabels | 00.compare_dex_dmso/1_analysis/00_process_profiles.py:47-65 | with unique batch ids in the identity table, the output keeps the row count of the stacked frame, and the labels read its control type, batch id and media columns |
| Combiner.FinishMatched | 00.compare_dex_dmso/1_analysis/00_process_profiles.py:47-60 | with unique batch ids in the identity table, a row whose batch id is in the identity table is labelled from that identity and its control type, and its treatment is "<compound>_<media>" |
| Combiner.FinishUnmatched | 00.compare_dex_dmso/1_analysis/00_process_profiles.py:47-60 | with unique batch ids in the identity table, a row whose batch id is not in the identity table is labelled "NegCon" or with its batch id |
| Combiner.FinishRowsTagged | 00.compare_dex_dmso/1_analysis/00_process_profiles.py:29-65 | with unique batch ids in the identity table, the output has as many rows as the plate tables, and row offset(k)+i carries the batch, plate and media of the k-th table |
| Combiner.FinishLabelled | 00.compare_dex_dmso/1_analysis/00_process_profiles.py:47-65 | whatever the identity table, a run that goes through had control type, batch id and media columns, and the output has one row per joined row, holding the labels computed on the join |
| Combiner.FinishRow | 00.compare_dex_dmso/1_analysis/00_process_profiles.py:47-60 | whatever the identity table, output row k is labelled from the stacked row and the identity that the k-th joined row pairs |
| Combiner.FinishKeepsRow | 00.compare_dex_dmso/1_analysis/00_process_profiles.py:47-65 | whatever the identity table, a stacked column that the join and labels do not write holds in output row k the cell of the stacked row the k-th joined row comes from |
| Combiner.FinishMatchedOnce | 00.compare_dex_dmso/1_analysis/00_process_profiles.py:47-60 | whatever the identity table, each identity whose batch id a stacked row has gives exactly one output row, labelled from that identity |
| Combiner.FinishUnmatchedOnce | 00.compare_dex_dmso/1_analysis/00_process_profiles.py:47-60 | whatever the identity table, a stacked row that no identity matches gives exactly one output row, labelled without a name or an OASIS id |
| FeatureSelection.DropImageColumns | 00.compare_dex_dmso/1_analysis/01_feature_selection.py:14 | no column starting with "Image" is left, every other column is kept, and the order is kept |
| FeatureSelection.FeatureSelect | 00.compare_dex_dmso/1_analysis/01_feature_selection.py:17-31 | the result has exactly the input columns that the selection keeps, unchanged and in order |
| FeatureSelection.DropIncompleteColumns | 00.compare_dex_dmso/1_analysis/01_feature_selection.py:34-35 | no column without "Metadata" in its name keeps a missing value; metadata and complete columns are kept; nothing is added or reordered |
| FeatureSelection.DropIncompleteIdempotent | 00.compare_dex_dmso/1_analysis/01_feature_selection.py:34-35 | dropping the incomplete columns a second time drops nothing more |
| FeatureSelection.MetadataPrefixedSurvive | 00.compare_dex_dmso/1_analysis/01_feature_selection.py:34-35 | every column whose name starts with "Metadata_" survives the final drop, missing values or not |
| FeatureSelection.SelectFeaturesOutput | 00.compare_dex_dmso/1_analysis/01_feature_selection.py:11-37 | the output's columns are input columns in order, none an Image column, none but metadata with missing values, and every kept non-image column that is complete or metadata survives |

## Left out

- Reading and writing files is not modelled. The directory listing with its `is_dir` flags, the
  sorted plate files and their parsed tables, and the rows of the identity CSV are inputs. The
  Parquet output is the returned frame, and `mkdir` is not modelled.
- The order of `iterdir()` is the order of the given listing; the operating system fixes it.
- `read_csv` and `read_parquet` are not modelled. Every table read
  is taken to be rectangular with distinct column names.
- Plates.PlateNumber: `int()` is modelled on plain decimal numerals only. Signs, surrounding
  whitespace, underscores and non-ASCII digits are treated as parse errors.
- `Path.stem` is modelled by the rule for names ending in ".csv.gz". Python releases differ on
  names that end with a dot, but no such name arises here.
- Join.LeftJoin: a profile frame that already has a `Metadata_OASIS_ID` or
  `Metadata_PREFERRED_NAME` column is a `ColumnClash` error at the join. pandas would instead
  suffix both copies, and the script would stop a few lines later with a KeyError at one of lines
  54-56.
- Join.LeftJoin: column dtypes and pandas' type coercion on merge keys are not modelled. Keys
  match when their cells are equal, and a missing batch id matches a missing one, as in pandas.
- The join is modelled for any identity table. With a repeated batch id it gives a profile row one
  joined row per match, so rows move and no longer line up with the stacked frame. The lemmas below
  are therefore stated for identity tables with unique batch ids only. The general case is stated
  row by row in Join.LeftJoinRow, Join.LeftJoinIdentityRow, Join.LeftJoinMatchedOnce,
  Join.LeftJoinUnmatchedOnce, Combiner.FinishRow, Combiner.FinishKeepsRow,
  Combiner.FinishMatchedOnce and Combiner.FinishUnmatchedOnce.
- Join.LeftJoinKeepsRows: requires unique batch ids in the identity table.
- Join.LeftJoinGet: requires unique batch ids in the identity table.
- Join.LeftJoinMatched: requires unique batch ids in the identity table.
- Join.LeftJoinUnmatched: requires unique batch ids in the identity table.
- Combiner.FinishKeeps: requires unique batch ids in the identity table.
- Combiner.FinishLabels: requires unique batch ids in the identity table.
- Combiner.FinishMatched: requires unique batch ids in the identity table.
- Combiner.FinishUnmatched: requires unique batch ids in the identity table.
- Combiner.FinishRowsTagged: requires unique batch ids in the identity table.
- The column selection and renaming of the identity CSV (lines 38-44) is not modelled. The
  identity rows are given already renamed.
- Labels.TreatmentLabel: `astype(str)` of a measurement is its given rendering, and of a missing
  cell "nan". Float formatting is not modelled.
- FeatureSelection.FeatureSelect: pycytominer's variance, correlation and missing-value thresholds
  are floating-point statistics and are not modelled. The selection is a test on columns given as a
  parameter, and the model relies only on its keeping columns unchanged and in order.
- There is no single lemma from the directory listing to the rows of the output. That statement is
  split into Combiner.CombinedStacked (listing to stacked frame) and Combiner.FinishRowsTagged
  (stacked frame to output).
- The later analysis scripts of the repository are not part of this model.

=== FILE: columns.dfy ===
/** The column names the two scripts write or read. */
module Columns {
  const BATCH: string := "Metadata_Batch"
  const PLATE: string := "Metadata_Plate"
  const MEDIA: string := "Metadata_Media"
  const BATCH_ID: string := "Metadata_batch_id"
  const OASIS_ID: string := "Metadata_OASIS_ID"
  const PREFERRED_NAME: string := "Metadata_PREFERRED_NAME"
  const CONTROL_TYPE: string := "Metadata_control_type"
  const COMPOUND: string := "Metadata_Compound"
  const TREATMENT: string := "Metadata_Treatment"
  const METADATA_PREFIX: string := "Metadata_"
  const NEGCON: string := "negcon"
  const NEGCON_LABEL: string := "NegCon"
}

=== FILE: combiner.dfy ===
/** `main` of the profile combiner, from the listing of the profiles directory and the rows of the
    compound identity table to the frame it writes: the tagged plate tables are stacked, the
    identity table is left-joined on the batch id, the compound and treatment labels are added and
    the metadata columns are moved to the front. */
module Combiner {
  import opened Wrappers
  import opened Frames
  import opened Columns
  import opened Profiles
  import opened Join
  import opened Labels
  import opened Reorder

  /** Lines 12-36: the tagged plate tables of every batch directory, stacked. */
  function Stacked(entries: seq<BatchEntry>): (r: Result<Frame, Error>)
    requires ValidListing(entries)
    ensures r.Ok? ==> Valid(r.value)
  {
    match TaggedFrames(entries)
    case Err(e) => Err(e)
    case Ok(dfs) =>
      TaggedFramesContents(entries);
      Combine(dfs)
  }

  /** Lines 38-65 on the stacked profiles: the join with the identity table, the two labels and
      the reordering. */
  function Finish(stacked: Frame, ids: seq<Identity>): (r: Result<Frame, Error>)
    requires Valid(stacked)
    ensures r.Ok? ==> Valid(r.value)
  {
    match LeftJoin(stacked, ids)
    case Err(e) => Err(e)
    case Ok(joined) =>
      match Labelled(joined)
      case Err(e) => Err(e)
      case Ok(labelled) => Ok(MetadataFirst(labelled))
  }

  /** The frame `main` writes, or the exception that stops it. */
  function Combined(entries: seq<BatchEntry>, ids: seq<Identity>): (r: Result<Frame, Error>)
    requires ValidListing(entries)
    ensures r.Ok? ==> Valid(r.value)
  {
    match Stacked(entries)
    case Err(e) => Err(e)
    case Ok(stacked) => Finish(stacked, ids)
  }

  /** `main`, step by step, without the reading and writing of files. */
  method ProcessProfiles(entries: seq<BatchEntry>, ids: seq<Identity>) returns (r: Result<Frame, Error>)
    requires ValidListing(entries)
    ensures r == Combined(entries, ids)
  {
    var dfs := CollectFrames(entries);
    if dfs.Err? {
      return Err(dfs.error);
    }
    TaggedFramesContents(entries);
    var combined := Combine(dfs.value);
    if combined.Err? {
      return Err(combined.error);
    }
    var joined := LeftJoin(combined.value, ids);
    if joined.Err? {
      return Err(joined.error);
    }
    var labelled := LabelCompounds(joined.value);
    if labelled.Err? {
      return Err(labelled.error);
    }
    r := Ok(MetadataFirst(labelled.value));
  }

  /** A listing without a single plate file stops at the concatenation, unless a batch directory
      has already failed (an empty directory fails on its own). */
  lemma NoPlatesNothingToConcat(entries: seq<BatchEntry>, ids: seq<Identity>)
    requires ValidListing(entries) && |Listing(entries)| == 0 && TaggedFrames(entries).Ok?
    ensures Combined(entries, ids) == Err(NothingToConcat)
  {
    TaggedFramesContents(entries);
  }

  // ---------------------------------------------------------------------------------------------
  // From the stacked frame to the output

  /** The labels and the reordering leave every other column as it was. */
  lemma LabelsKeep(j: Frame, name: string)
    requires Valid(j) && Labelled(j).Ok? && name != COMPOUND && name != TREATMENT
    ensures Get(MetadataFirst(Labelled(j).value), name) == Get(j, name)
  {
    var l := Labelled(j).value;
    LabelledColumns(j);
    MetadataFirstKeepsColumns(l, name);
    if HasColumn(j, name) {
      GetMember(l, Column(name, Get(j, name).value));
    }
  }

  /** Whatever the identity table: a run that goes through had the columns the labels read in
      the stacked profiles, and the output holds one row per row of the join, with the labels
      computed on the join. */
  lemma FinishLabelled(s: Frame, ids: seq<Identity>)
    requires Valid(s) && Finish(s, ids).Ok?
    ensures HasColumn(s, CONTROL_TYPE) && HasColumn(s, BATCH_ID) && HasColumn(s, MEDIA)
    ensures var j := LeftJoin(s, ids).value;
      && Labelled(j).Ok? && Finish(s, ids).value.height == j.height
      && Get(Finish(s, ids).value, COMPOUND) == Some(CompoundColumn(j))
      && Get(Finish(s, ids).value, TREATMENT) == Some(TreatmentColumn(j))
  {
    var j := LeftJoin(s, ids).value;
    var l := Labelled(j).value;
    LeftJoinHas(s, ids, CONTROL_TYPE);
    LeftJoinHas(s, ids, BATCH_ID);
    LeftJoinHas(s, ids, MEDIA);
    LabelledColumns(j);
    MetadataFirstKeepsColumns(l, COMPOUND);
    MetadataFirstKeepsColumns(l, TREATMENT);
  }

  /** With unique batch ids in the identity table, a stacked column other than the four the join
      and the labels write reaches the output unchanged. */
  lemma FinishKeeps(s: Frame, ids: seq<Identity>, c: Column)
    requires Valid(s) && UniqueBatchIds(ids) && Finish(s, ids).Ok? && c in s.columns
    requires c.name !in {COMPOUND, TREATMENT, OASIS_ID, PREFERRED_NAME}
    ensures Get(Finish(s, ids).value, c.name) == Some(c.cells)
  {
    LeftJoinGet(s, ids, c);
    LabelsKeep(LeftJoin(s, ids).value, c.name);
  }

  /** With unique batch ids in the identity table, the output of a run that goes through has as
      many rows as the stacked frame, and the labels read the stacked columns. */
  lemma FinishLabels(s: Frame, ids: seq<Identity>)
    requires Valid(s) && UniqueBatchIds(ids) && Finish(s, ids).Ok?
    ensures HasColumn(s, CONTROL_TYPE) && HasColumn(s, BATCH_ID) && HasColumn(s, MEDIA)
    ensures var j := LeftJoin(s, ids).value;
      && Labelled(j).Ok? && Finish(s, ids).value.height == s.height
      && Get(j, CONTROL_TYPE) == Get(s, CONTROL_TYPE) && Get(j, BATCH_ID) == Get(s, BATCH_ID)
      && Get(j, MEDIA) == Get(s, MEDIA)
      && Get(Finish(s, ids).value, COMPOUND) == Some(CompoundColumn(j))
      && Get(Finish(s, ids).value, TREATMENT) == Some(TreatmentColumn(j))
  {
    FinishLabelled(s, ids);
    LeftJoinKeepsRows(s, ids);
    LeftJoinGet(s, ids, Column(CONTROL_TYPE, Get(s, CONTROL_TYPE).value));
    LeftJoinGet(s, ids, Column(BATCH_ID, Get(s, BATCH_ID).value));
    LeftJoinGet(s, ids, Column(MEDIA, Get(s, MEDIA).value));
  }

  /** With unique batch ids in the identity table, a row whose batch id matches the `j`-th
      identity entry stays in its place and is labelled from that entry. */
  lemma FinishMatched(s: Frame, ids: seq<Identity>, row: nat, j: nat)
    requires Valid(s) && UniqueBatchIds(ids) && Finish(s, ids).Ok? && row < s.height
    requires j < |ids| && HasColumn(s, BATCH_ID) && ids[j].batchId == Get(s, BATCH_ID).value[row]
    ensures HasColumn(s, CONTROL_TYPE) && HasColumn(s, MEDIA)
    ensures var r := Finish(s, ids).value;
      var compound := CompoundOf(ids[j].preferredName, Get(s, CONTROL_TYPE).value[row], ids[j].oasisId, ids[j].batchId);
      && row < r.height
      && Get(r, COMPOUND).Some? && Get(r, COMPOUND).value[row] == compound
      && Get(r, TREATMENT).Some?
      && Get(r, TREATMENT).value[row] == TextCell(TreatmentLabel(compound, Get(s, MEDIA).value[row]))
  {
    FinishLabels(s, ids);
    LeftJoinMatched(s, ids, row, j);
    LabelsAt(LeftJoin(s, ids).value, row);
  }

  /** With unique batch ids in the identity table, a row whose batch id matches no identity entry
      stays in its place without a preferred name and an OASIS id, so it is labelled "NegCon" or
      with its batch id. */
  lemma FinishUnmatched(s: Frame, ids: seq<Identity>, row: nat)
    requires Valid(s) && UniqueBatchIds(ids) && Finish(s, ids).Ok? && row < s.height && HasColumn(s, BATCH_ID)
    requires forall j :: 0 <= j < |ids| ==> ids[j].batchId != Get(s, BATCH_ID).value[row]
    ensures HasColumn(s, CONTROL_TYPE) && HasColumn(s, MEDIA)
    ensures var r := Finish(s, ids).value;
      var compound := CompoundOf(None, Get(s, CONTROL_TYPE).value[row], None, Get(s, BATCH_ID).value[row]);
      && row < r.height
      && Get(r, COMPOUND).Some? && Get(r, COMPOUND).value[row] == compound
      && Get(r, TREATMENT).Some?
      && Get(r, TREATMENT).value[row] == TextCell(TreatmentLabel(compound, Get(s, MEDIA).value[row]))
  {
    FinishLabels(s, ids);
    LeftJoinUnmatched(s, ids, row);
    LabelsAt(LeftJoin(s, ids).value, row);
  }

  /** Row `k` of `r` is labelled from stacked row `row` with the identity cells `name` and
      `oasis`. */
  predicate LabelledRow(s: Frame, r: Frame, k: nat, row: nat, name: Cell, oasis: Cell)
    requires Valid(s) && HasColumn(s, CONTROL_TYPE) && HasColumn(s, BATCH_ID) && HasColumn(s, MEDIA)
    requires row < s.height
  {
    var compound := CompoundOf(name, Get(s, CONTROL_TYPE).value[row], oasis, Get(s, BATCH_ID).value[row]);
    && k < r.height
    && Get(r, COMPOUND).Some? && k < |Get(r, COMPOUND).value| && Get(r, COMPOUND).value[k] == compound
    && Get(r, TREATMENT).Some? && k < |Get(r, TREATMENT).value|
    && Get(r, TREATMENT).value[k] == TextCell(TreatmentLabel(compound, Get(s, MEDIA).value[row]))
  }

  /** Whatever the identity table, row `k` of the output is labelled from the stacked row and the
      identity that the `k`-th row of the join pairs. */
  lemma FinishRow(s: Frame, ids: seq<Identity>, k: nat)
    requires Valid(s) && Finish(s, ids).Ok? && HasColumn(s, BATCH_ID)
    requires k < |JoinLinks(Get(s, BATCH_ID).value, ids)|
    ensures HasColumn(s, CONTROL_TYPE) && HasColumn(s, MEDIA)
    ensures var link := JoinLinks(Get(s, BATCH_ID).value, ids)[k];
      && link.left < s.height
      && LabelledRow(s, Finish(s, ids).value, k, link.left,
                     if link.right.Some? then ids[link.right.value].preferredName else None,
                     if link.right.Some? then ids[link.right.value].oasisId else None)
  {
    var j := LeftJoin(s, ids).value;
    FinishLabelled(s, ids);
    LeftJoinRow(s, ids, Column(CONTROL_TYPE, Get(s, CONTROL_TYPE).value), k);
    LeftJoinRow(s, ids, Column(BATCH_ID, Get(s, BATCH_ID).value), k);
    LeftJoinRow(s, ids, Column(MEDIA, Get(s, MEDIA).value), k);
    LeftJoinIdentityRow(s, ids, k);
    LabelsAt(j, k);
  }

  /** Whatever the identity table, a stacked column other than the four the join and the labels
      write holds, in row `k` of the output, the cell of the stacked row the `k`-th row of the join
      comes from. */
  lemma FinishKeepsRow(s: Frame, ids: seq<Identity>, c: Column, k: nat)
    requires Valid(s) && Finish(s, ids).Ok? && c in s.columns && HasColumn(s, BATCH_ID)
    requires c.name !in {COMPOUND, TREATMENT, OASIS_ID, PREFERRED_NAME}
    requires k < |JoinLinks(Get(s, BATCH_ID).value, ids)|
    ensures var r := Finish(s, ids).value;
      var link := JoinLinks(Get(s, BATCH_ID).value, ids)[k];
      && k < r.height && link.left < |c.cells|
      && Get(r, c.name).Some? && Get(r, c.name).value[k] == c.cells[link.left]
  {
    FinishLabelled(s, ids);
    LeftJoinRow(s, ids, c, k);
    LabelsKeep(LeftJoin(s, ids).value, c.name);
  }

  /** Whatever the identity table, each identity whose batch id is that of stacked row `row` gives
      exactly one output row, labelled from that identity. */
  lemma FinishMatchedOnce(s: Frame, ids: seq<Identity>, row: nat, j: nat)
    requires Valid(s) && Finish(s, ids).Ok? && row < s.height
    requires j < |ids| && HasColumn(s, BATCH_ID) && ids[j].batchId == Get(s, BATCH_ID).value[row]
    ensures HasColumn(s, CONTROL_TYPE) && HasColumn(s, MEDIA)
    ensures var links := JoinLinks(Get(s, BATCH_ID).value, ids);
      exists k: nat :: OnlyLinkAt(links, k, Link(row, Some(j)))
        && LabelledRow(s, Finish(s, ids).value, k, row, ids[j].preferredName, ids[j].oasisId)
  {
    var links := JoinLinks(Get(s, BATCH_ID).value, ids);
    FinishLabelled(s, ids);
    MatchLinkedOnce(Get(s, BATCH_ID).value, ids, row, j);
    var k: nat :| OnlyLinkAt(links, k, Link(row, Some(j)));
    FinishRow(s, ids, k);
  }

  /** Whatever the identity table, a stacked row whose batch id matches no identity gives exactly
      one output row, labelled without a preferred name and an OASIS id. */
  lemma FinishUnmatchedOnce(s: Frame, ids: seq<Identity>, row: nat)
    requires Valid(s) && Finish(s, ids).Ok? && row < s.height && HasColumn(s, BATCH_ID)
    requires forall j :: 0 <= j < |ids| ==> ids[j].batchId != Get(s, BATCH_ID).value[row]
    ensures HasColumn(s, CONTROL_TYPE) && HasColumn(s, MEDIA)
    ensures var links := JoinLinks(Get(s, BATCH_ID).value, ids);
      exists k: nat :: OnlyRowAt(links, k, row)
        && LabelledRow(s, Finish(s, ids).value, k, row, None, None)
  {
    var links := JoinLinks(Get(s, BATCH_ID).value, ids);
    FinishLabelled(s, ids);
    UnmatchedLinkedOnce(Get(s, BATCH_ID).value, ids, row);
    var k: nat :| OnlyRowAt(links, k, row) && links[k].right == None;
    FinishRow(s, ids, k);
  }

  // ---------------------------------------------------------------------------------------------
  // From the listing to the output

  /** Row `row` of `r` carries the batch, plate and media of `t`. */
  predicate RowTagged(r: Frame, row: nat, t: Tag) {
    && row < r.height
    && Get(r, BATCH).Some? && row < |Get(r, BATCH).value| && Get(r, BATCH).value[row] == TextCell(t.batch)
    && Get(r, PLATE).Some? && row < |Get(r, PLATE).value| && Get(r, PLATE).value[row] == TextCell(t.plate)
    && Get(r, MEDIA).Some? && row < |Get(r, MEDIA).value| && Get(r, MEDIA).value[row] == TextCell(t.media)
  }

  /** The stacked frame of a run that goes through is the concatenation of the tagged tables. */
  lemma CombinedStacked(entries: seq<BatchEntry>, ids: seq<Identity>)
    requires ValidListing(entries) && Combined(entries, ids).Ok?
    ensures TaggedFrames(entries).Ok? && |TaggedFrames(entries).value| > 0
    ensures ListingTags(entries).Ok? && |ListingTags(entries).value| == |Listing(entries)|
    ensures TaggedFrames(entries).value == TagAll(Listing(entries), ListingTags(entries).value)
    ensures Stacked(entries) == Ok(Concat(TaggedFrames(entries).value))
    ensures Combined(entries, ids) == Finish(Concat(TaggedFrames(entries).value), ids)
  {
    TaggedFramesContents(entries);
  }

  /** Stacked tagged tables, joined with an identity table of unique batch ids: each row keeps its
      table's tags through the join, the labels and the reordering, and no row is added or lost. */
  lemma FinishRowsTagged(frames: seq<Frame>, tags: seq<Tag>, ids: seq<Identity>, k: nat, i: nat)
    requires AllValid(frames) && |tags| == |frames| && |frames| > 0
    requires forall x :: 0 <= x < |frames| ==> Tagged(frames[x], tags[x])
    requires UniqueBatchIds(ids) && Finish(Concat(frames), ids).Ok?
    requires k < |frames| && i < frames[k].height
    ensures Finish(Concat(frames), ids).value.height == TotalHeight(frames)
    ensures RowTagged(Finish(Concat(frames), ids).value, Offset(frames, k) + i, tags[k])
  {
    var s := Concat(frames);
    Profiles.CombinedRowsTagged(frames, tags, k, i);
    FinishLabels(s, ids);
    FinishKeeps(s, ids, Column(BATCH, Get(s, BATCH).value));
    FinishKeeps(s, ids, Column(PLATE, Get(s, PLATE).value));
    FinishKeeps(s, ids, Column(MEDIA, Get(s, MEDIA).value));
  }
}

=== FILE: features.dfy ===
/** The feature selection script: the Image columns are removed, pycytominer's feature selection
    picks some of the remaining columns, and every column that still has a missing value is
    dropped unless its name mentions "Metadata". */
module FeatureSelection {
  import opened Text
  import opened Frames

  const IMAGE: string := "Image"
  const METADATA: string := "Metadata"

  predicate IsImage(c: Column) {
    StartsWith(c.name, IMAGE)
  }

  /** `df.isnull().any()` for one column. */
  predicate HasMissing(c: Column) {
    exists i :: 0 <= i < |c.cells| && c.cells[i].None?
  }

  /** The final drop spares a column that is complete or whose name contains "Metadata". */
  predicate Survives(c: Column) {
    !HasMissing(c) || Contains(c.name, METADATA)
  }

  /** Line 14, `df.loc[:, ~df.columns.str.startswith("Image")]`. */
  function DropImageColumns(f: Frame): (r: Frame)
    requires Valid(f)
    ensures Valid(r) && r.height == f.height
    ensures forall c :: c in r.columns ==> !StartsWith(c.name, IMAGE)
    ensures forall c :: c in f.columns && !StartsWith(c.name, IMAGE) ==> c in r.columns
    ensures IsSubsequence(r.columns, f.columns)
  {
    FilterValid(f, Not(IsImage));
    FilterIsSubsequence(f.columns, Not(IsImage));
    Frame(f.height, Filter(f.columns, Not(IsImage)))
  }

  /** `feature_select(...)` (lines 17-31) is pycytominer's: its variance, correlation and
      missing-value thresholds are computed in floating point. It is modelled by the columns it
      keeps, given as a test on columns; whatever it keeps, it keeps in order and unchanged. */
  function FeatureSelect(f: Frame, keep: Column -> bool): (r: Frame)
    requires Valid(f)
    ensures Valid(r) && r.height == f.height
    ensures forall c :: c in r.columns <==> c in f.columns && keep(c)
    ensures IsSubsequence(r.columns, f.columns)
  {
    FilterValid(f, keep);
    FilterIsSubsequence(f.columns, keep);
    Frame(f.height, Filter(f.columns, keep))
  }

  /** Lines 34-35: `missing_cols` are the columns with a missing value, and the ones among them
      whose name lacks "Metadata" are dropped. */
  function DropIncompleteColumns(f: Frame): (r: Frame)
    requires Valid(f)
    ensures Valid(r) && r.height == f.height
    ensures forall c :: c in r.columns && !Contains(c.name, METADATA) ==>
              forall i :: 0 <= i < |c.cells| ==> c.cells[i].Some?
    ensures forall c :: c in f.columns && Contains(c.name, METADATA) ==> c in r.columns
    ensures forall c :: c in f.columns && !HasMissing(c) ==> c in r.columns
    ensures forall c :: c in r.columns ==> c in f.columns
    ensures IsSubsequence(r.columns, f.columns)
  {
    FilterValid(f, Survives);
    FilterIsSubsequence(f.columns, Survives);
    Frame(f.height, Filter(f.columns, Survives))
  }

  /** The metadata columns the profile combiner writes, named "Metadata_...", all survive the
      final drop, missing values or not. */
  lemma MetadataPrefixedSurvive(f: Frame)
    requires Valid(f)
    ensures forall c :: c in f.columns && StartsWith(c.name, "Metadata_") ==> c in DropIncompleteColumns(f).columns
  {
    assert StartsWith("Metadata_", METADATA);
    forall c | c in f.columns && StartsWith(c.name, "Metadata_") ensures Contains(c.name, METADATA) {
      PrefixIsContained(c.name, "Metadata_", METADATA);
    }
  }

  /** Dropping the incomplete columns a second time drops nothing more. */
  lemma DropIncompleteIdempotent(f: Frame)
    requires Valid(f)
    ensures DropIncompleteColumns(DropIncompleteColumns(f)) == DropIncompleteColumns(f)
  {
    FilterTwice(f.columns, Survives);
  }

  /** The whole script, from the normalized profiles to the frame it writes. */
  function SelectFeatures(f: Frame, keep: Column -> bool): (r: Frame)
    requires Valid(f)
    ensures Valid(r) && r.height == f.height
  {
    DropIncompleteColumns(FeatureSelect(DropImageColumns(f), keep))
  }

  /** What the script writes: columns of its input, unchanged and in their order, none of them an
      Image column, and none but metadata columns with missing values; a metadata column that is
      not an Image column survives whenever feature selection keeps it. */
  lemma SelectFeaturesOutput(f: Frame, keep: Column -> bool)
    requires Valid(f)
    ensures var r := SelectFeatures(f, keep);
      && IsSubsequence(r.columns, f.columns)
      && (forall c :: c in r.columns ==> !StartsWith(c.name, IMAGE))
      && (forall c :: c in r.columns && !Contains(c.name, METADATA) ==> !HasMissing(c))
      && (forall c :: c in f.columns && !StartsWith(c.name, IMAGE) && keep(c) && Survives(c) ==> c in r.columns)
  {
    var a := DropImageColumns(f);
    var b := FeatureSelect(a, keep);
    var r := DropIncompleteColumns(b);
    SubsequenceTrans(r.columns, b.columns, a.columns);
    SubsequenceTrans(r.columns, a.columns, f.columns);
  }

  /** A subsequence of a subsequence is a subsequence. */
  lemma {:induction false} SubsequenceTrans<T>(a: seq<T>, b: seq<T>, c: seq<T>)
    requires IsSubsequence(a, b) && IsSubsequence(b, c)
    ensures IsSubsequence(a, c)
    decreases |c|
  {
    if |a| > 0 {
      if a[0] == b[0] && IsSubsequence(a[1..], b[1..]) {
        if b[0] == c[0] && IsSubsequence(b[1..], c[1..]) {
          SubsequenceTrans(a[1..], b[1..], c[1..]);
        } else {
          SubsequenceTrans(a, b, c[1..]);
        }
      } else {
        if b[0] == c[0] && IsSubsequence(b[1..], c[1..]) {
          SubsequenceTrans(a, b[1..], c[1..]);
        } else {
          SubsequenceTrans(a, b, c[1..]);
        }
      }
    }
  }
}

=== FILE: frames.dfy ===
/** The pandas data frames the scripts build, and the frame operations they use.

    A frame is kept column by column: a height (number of rows) and a sequence of named columns
    whose cells are present or missing (NaN). Dropping or reordering columns then moves whole
    columns, so "the rows are unchanged" reads as "every column that is left is an input column". */
module Frames {
  import opened Wrappers
  import opened Text

  /** A cell's content: text read from a CSV or written by the scripts, or any other value
      (a measurement), known only by the text `str()` gives for it. */
  datatype Value = Str(text: string) | Measure(rendered: string)

  /** A present or missing (NaN) cell. */
  type Cell = Option<Value>

  /** What stops the profile combiner: each one is an exception that aborts the script. */
  datatype Error =
    | BadPlateId(plate: string)     // `int()` rejects a plate id once "BR" is removed
    | EmptyBatch(batch: string)     // `min()` of a batch without plate files
    | NoMedia(plate: string)        // a plate number that is neither the smallest nor the largest
    | NothingToConcat               // `pd.concat([])`
    | MissingColumn(name: string)   // a column the script reads is not in the frame
    | ColumnClash(name: string)     // the identity table brings a column the profiles already have

  datatype Column = Column(name: string, cells: seq<Cell>)

  datatype Frame = Frame(height: nat, columns: seq<Column>)

  /** `astype(str)` on one cell: the text of the value, "nan" for a missing cell. */
  function Render(c: Cell): string {
    match c
    case None => "nan"
    case Some(Str(t)) => t
    case Some(Measure(r)) => r
  }

  function TextCell(s: string): Cell {
    Some(Str(s))
  }

  /** A column of `h` equal text cells: what assigning a Python string to a column produces. */
  function Constant(h: nat, s: string): (cells: seq<Cell>)
    ensures |cells| == h && forall i :: 0 <= i < h ==> cells[i] == TextCell(s)
  {
    seq(h, _ => TextCell(s))
  }

  function Missing(h: nat): (cells: seq<Cell>)
    ensures |cells| == h && forall i :: 0 <= i < h ==> cells[i] == None
  {
    seq(h, _ => None)
  }

  /** No two columns share a name. The pairs compared are the ones a proof names through
      `NameAt`. */
  predicate UniqueNames(cols: seq<Column>) {
    forall i, j {:trigger NameAt(cols, i), NameAt(cols, j)} ::
      0 <= i < j < |cols| ==> NameAt(cols, i) != NameAt(cols, j)
  }

  function NameAt(cols: seq<Column>, i: nat): string
    requires i < |cols|
  {
    cols[i].name
  }

  /** Two positions of a list of columns with distinct names hold different names. */
  lemma NamesDiffer(cols: seq<Column>, i: nat, j: nat)
    requires UniqueNames(cols) && i < |cols| && j < |cols| && i != j
    ensures cols[i].name != cols[j].name
  {
    assert NameAt(cols, i) != NameAt(cols, j);
  }

  lemma UniquePrefix(cols: seq<Column>, m: nat)
    requires UniqueNames(cols) && m <= |cols|
    ensures UniqueNames(cols[..m])
  {
    forall i, j | 0 <= i < j < m ensures NameAt(cols[..m], i) != NameAt(cols[..m], j) {
      NamesDiffer(cols, i, j);
    }
  }

  lemma UniqueTail(cols: seq<Column>)
    requires UniqueNames(cols) && |cols| > 0
    ensures UniqueNames(cols[1..])
  {
    forall i, j | 0 <= i < j < |cols| - 1 ensures NameAt(cols[1..], i) != NameAt(cols[1..], j) {
      NamesDiffer(cols, i + 1, j + 1);
    }
  }

  /** A frame as pandas builds it here: every column has one cell per row, and no two columns
      share a name. */
  predicate Valid(f: Frame) {
    (forall c :: c in f.columns ==> |c.cells| == f.height) && UniqueNames(f.columns)
  }

  function Names(cols: seq<Column>): (r: seq<string>)
    ensures |r| == |cols| && forall i :: 0 <= i < |cols| ==> r[i] == cols[i].name
  {
    seq(|cols|, i requires 0 <= i < |cols| => cols[i].name)
  }

  predicate HasColumn(f: Frame, name: string) {
    exists c :: c in f.columns && c.name == name
  }

  /** The position of the last column called `name` (in a valid frame, the only one), or -1. */
  function IndexOf(cols: seq<Column>, name: string): (r: int)
    ensures -1 <= r < |cols|
    ensures r >= 0 ==> cols[r].name == name
    ensures r < 0 ==> forall c :: c in cols ==> c.name != name
  {
    if |cols| == 0 then -1
    else if cols[|cols| - 1].name == name then |cols| - 1
    else IndexOf(cols[..|cols| - 1], name)
  }

  /** `df[name]`: the column's cells, or `None` for the KeyError. */
  function Get(f: Frame, name: string): (r: Option<seq<Cell>>)
    ensures r.Some? <==> HasColumn(f, name)
    ensures r.Some? ==> Column(name, r.value) in f.columns
    ensures Valid(f) && r.Some? ==> |r.value| == f.height
  {
    var i := IndexOf(f.columns, name);
    if i < 0 then None else Some(f.columns[i].cells)
  }

  /** In a valid frame a column is found under its own name. */
  lemma GetMember(f: Frame, c: Column)
    requires Valid(f) && c in f.columns
    ensures Get(f, c.name) == Some(c.cells)
  {
    var j :| 0 <= j < |f.columns| && f.columns[j] == c;
    IndexOfUnique(f.columns, c.name, j);
  }

  /** `df[name] = cells` (and `df.assign(name=...)`): an existing column is overwritten where it
      stands, a new one is added at the end. */
  function Assign(f: Frame, name: string, cells: seq<Cell>): (r: Frame)
    requires Valid(f) && |cells| == f.height
    ensures Valid(r) && r.height == f.height
    ensures Get(r, name) == Some(cells)
    ensures forall c :: c in f.columns && c.name != name ==> c in r.columns
    ensures forall c :: c in r.columns && c.name != name ==> c in f.columns
  {
    var i := IndexOf(f.columns, name);
    if i >= 0 then
      ReplaceColumn(f, i, cells);
      Frame(f.height, f.columns[i := Column(name, cells)])
    else
      AppendColumn(f, name, cells);
      Frame(f.height, f.columns + [Column(name, cells)])
  }

  /** An existing column keeps its place; a new one comes last. */
  lemma AssignNames(f: Frame, name: string, cells: seq<Cell>)
    requires Valid(f) && |cells| == f.height
    ensures Names(Assign(f, name, cells).columns) ==
              if HasColumn(f, name) then Names(f.columns) else Names(f.columns) + [name]
  {
    var i := IndexOf(f.columns, name);
    if i >= 0 {
      ReplaceColumn(f, i, cells);
    } else {
      AppendColumn(f, name, cells);
    }
  }

  /** Assigning one column leaves every other column reading as before. */
  lemma AssignOther(f: Frame, name: string, cells: seq<Cell>, other: string)
    requires Valid(f) && |cells| == f.height && other != name
    ensures Get(Assign(f, name, cells), other) == Get(f, other)
  {
    var r := Assign(f, name, cells);
    if HasColumn(f, other) {
      GetMember(r, Column(other, Get(f, other).value));
    }
  }

  /** In a frame with distinct names, the column called `name` is found where it stands. */
  lemma {:induction false} IndexOfUnique(cols: seq<Column>, name: string, i: nat)
    requires UniqueNames(cols) && i < |cols| && cols[i].name == name
    ensures IndexOf(cols, name) == i
    decreases |cols|
  {
    if i < |cols| - 1 {
      NamesDiffer(cols, i, |cols| - 1);
      UniquePrefix(cols, |cols| - 1);
      IndexOfUnique(cols[..|cols| - 1], name, i);
    }
  }

  /** Of two assignments to the same column, only the second is seen, and the column keeps the
      place the first gave it. */
  lemma AssignTwice(f: Frame, name: string, a: seq<Cell>, b: seq<Cell>)
    requires Valid(f) && |a| == f.height && |b| == f.height
    ensures Assign(Assign(f, name, a), name, b) == Assign(f, name, b)
  {
    var i := IndexOf(f.columns, name);
    if i >= 0 {
      AssignTwiceExisting(f, name, a, b, i);
    } else {
      AssignTwiceNew(f, name, a, b);
    }
  }

  lemma AssignTwiceExisting(f: Frame, name: string, a: seq<Cell>, b: seq<Cell>, i: nat)
    requires Valid(f) && |a| == f.height && |b| == f.height && i == IndexOf(f.columns, name)
    ensures Assign(Assign(f, name, a), name, b) == Assign(f, name, b)
  {
    var g := Assign(f, name, a);
    assert g == Frame(f.height, f.columns[i := Column(name, a)]);
    IndexOfUnique(g.columns, name, i);
    assert Assign(g, name, b) == Frame(f.height, g.columns[i := Column(name, b)]);
    assert g.columns[i := Column(name, b)] == f.columns[i := Column(name, b)];
  }

  lemma AssignTwiceNew(f: Frame, name: string, a: seq<Cell>, b: seq<Cell>)
    requires Valid(f) && |a| == f.height && |b| == f.height && IndexOf(f.columns, name) < 0
    ensures Assign(Assign(f, name, a), name, b) == Assign(f, name, b)
  {
    var g := Assign(f, name, a);
    var n := |f.columns|;
    assert g == Frame(f.height, f.columns + [Column(name, a)]);
    IndexOfUnique(g.columns, name, n);
    assert Assign(g, name, b) == Frame(f.height, g.columns[n := Column(name, b)]);
    assert g.columns[n := Column(name, b)] == f.columns + [Column(name, b)];
  }

  /** Two assignments in a row to different columns. */
  lemma AssignPair(f: Frame, n1: string, c1: seq<Cell>, n2: string, c2: seq<Cell>)
    requires Valid(f) && |c1| == f.height && |c2| == f.height && n1 != n2
    ensures var r := Assign(Assign(f, n1, c1), n2, c2);
      && Get(r, n1) == Some(c1) && Get(r, n2) == Some(c2)
      && (forall c :: c in f.columns && c.name != n1 && c.name != n2 ==> c in r.columns)
      && (forall c :: c in r.columns && c.name != n1 && c.name != n2 ==> c in f.columns)
      && Names(r.columns) == Names(f.columns) + (if HasColumn(f, n1) then [] else [n1])
                                              + (if HasColumn(f, n2) then [] else [n2])
  {
    AssignOther(Assign(f, n1, c1), n2, c2, n1);
    AssignPairMembers(f, n1, c1, n2, c2);
    AssignPairNames(f, n1, c1, n2, c2);
  }

  /** The columns named neither `n1` nor `n2` are the same before and after. */
  lemma AssignPairMembers(f: Frame, n1: string, c1: seq<Cell>, n2: string, c2: seq<Cell>)
    requires Valid(f) && |c1| == f.height && |c2| == f.height
    ensures var r := Assign(Assign(f, n1, c1), n2, c2);
      && (forall c :: c in f.columns && c.name != n1 && c.name != n2 ==> c in r.columns)
      && (forall c :: c in r.columns && c.name != n1 && c.name != n2 ==> c in f.columns)
  {
    var g := Assign(f, n1, c1);
    var r := Assign(g, n2, c2);
    forall c | c in f.columns && c.name != n1 && c.name != n2 ensures c in r.columns {
      assert c in g.columns;
    }
    forall c | c in r.columns && c.name != n1 && c.name != n2 ensures c in f.columns {
      assert c in g.columns;
    }
  }

  /** The names of the second assignment's result: new names are added at the end, in order. */
  lemma AssignPairNames(f: Frame, n1: string, c1: seq<Cell>, n2: string, c2: seq<Cell>)
    requires Valid(f) && |c1| == f.height && |c2| == f.height && n1 != n2
    ensures Names(Assign(Assign(f, n1, c1), n2, c2).columns) ==
              Names(f.columns) + (if HasColumn(f, n1) then [] else [n1])
                               + (if HasColumn(f, n2) then [] else [n2])
  {
    var g := Assign(f, n1, c1);
    AssignNames(f, n1, c1);
    AssignKeepsOthers(f, n1, c1, n2);
    AssignNames(g, n2, c2);
    AddedTwice(Names(f.columns), Names(g.columns), Names(Assign(g, n2, c2).columns),
               HasColumn(f, n1), HasColumn(f, n2), n1, n2);
  }

  /** Adding a name unless it is there, twice over. */
  lemma AddedTwice(x: seq<string>, y: seq<string>, z: seq<string>, has1: bool, has2: bool, n1: string, n2: string)
    requires y == if has1 then x else x + [n1]
    requires z == if has2 then y else y + [n2]
    ensures z == x + (if has1 then [] else [n1]) + (if has2 then [] else [n2])
  {
  }

  /** Assigning one column neither adds nor removes a column of another name. */
  lemma AssignKeepsOthers(f: Frame, name: string, cells: seq<Cell>, other: string)
    requires Valid(f) && |cells| == f.height && other != name
    ensures HasColumn(Assign(f, name, cells), other) == HasColumn(f, other)
  {
    AssignOther(f, name, cells, other);
  }

  predicate Sized(cols: seq<Column>, h: nat) {
    forall k :: 0 <= k < |cols| ==> |cols[k].cells| == h
  }

  /** `df.assign(n1=v1, n2=v2, ...)`: the keyword columns are assigned one after the other. */
  function AssignAll(f: Frame, cols: seq<Column>): (r: Frame)
    requires Valid(f) && Sized(cols, f.height)
    ensures Valid(r) && r.height == f.height
    decreases |cols|
  {
    if |cols| == 0 then f
    else AssignAll(Assign(f, cols[0].name, cols[0].cells), cols[1..])
  }

  /** Columns the keywords do not name are left as they were. */
  lemma {:induction false} AssignAllKeeps(f: Frame, cols: seq<Column>)
    requires Valid(f) && Sized(cols, f.height)
    ensures forall c :: c in f.columns && c.name !in Names(cols) ==> c in AssignAll(f, cols).columns
    ensures forall c :: c in AssignAll(f, cols).columns && c.name !in Names(cols) ==> c in f.columns
    decreases |cols|
  {
    if |cols| > 0 {
      var g := Assign(f, cols[0].name, cols[0].cells);
      assert Names(cols) == [cols[0].name] + Names(cols[1..]);
      AssignAllKeeps(g, cols[1..]);
    }
  }

  /** A column the keywords do not name reads the same after the assignment. */
  lemma AssignAllOther(f: Frame, cols: seq<Column>, name: string)
    requires Valid(f) && Sized(cols, f.height) && name !in Names(cols)
    ensures Get(AssignAll(f, cols), name) == Get(f, name)
  {
    var r := AssignAll(f, cols);
    AssignAllKeeps(f, cols);
    if Get(f, name).Some? {
      GetMember(r, Column(name, Get(f, name).value));
    }
  }

  /** A keyword whose name does not come back later sets that column. */
  lemma {:induction false} AssignAllGet(f: Frame, cols: seq<Column>, k: nat)
    requires Valid(f) && Sized(cols, f.height) && k < |cols|
    requires forall j :: k < j < |cols| ==> cols[j].name != cols[k].name
    ensures Get(AssignAll(f, cols), cols[k].name) == Some(cols[k].cells)
    decreases |cols|
  {
    var g := Assign(f, cols[0].name, cols[0].cells);
    if k == 0 {
      AssignAllOther(g, cols[1..], cols[0].name);
    } else {
      AssignAllGet(g, cols[1..], k - 1);
    }
  }

  lemma ReplaceColumn(f: Frame, i: nat, cells: seq<Cell>)
    requires Valid(f) && i < |f.columns| && |cells| == f.height
    ensures var r := Frame(f.height, f.columns[i := Column(f.columns[i].name, cells)]);
      && Valid(r)
      && Get(r, f.columns[i].name) == Some(cells)
      && (forall c :: c in f.columns && c.name != f.columns[i].name ==> c in r.columns)
      && (forall c :: c in r.columns && c.name != f.columns[i].name ==> c in f.columns)
      && Names(r.columns) == Names(f.columns)
  {
    var name := f.columns[i].name;
    var r := Frame(f.height, f.columns[i := Column(name, cells)]);
    assert r.columns[i] == Column(name, cells);
    forall a, b | 0 <= a < b < |r.columns| ensures NameAt(r.columns, a) != NameAt(r.columns, b) {
      NamesDiffer(f.columns, a, b);
    }
    GetMember(r, Column(name, cells));
    forall c | c in f.columns && c.name != name ensures c in r.columns {
      var j :| 0 <= j < |f.columns| && f.columns[j] == c;
      assert r.columns[j] == c;
    }
    forall c | c in r.columns && c.name != name ensures c in f.columns {
      var j :| 0 <= j < |r.columns| && r.columns[j] == c;
      assert f.columns[j] == c;
    }
    assert Names(r.columns) == Names(f.columns);
  }

  lemma AppendColumn(f: Frame, name: string, cells: seq<Cell>)
    requires Valid(f) && !HasColumn(f, name) && |cells| == f.height
    ensures var r := Frame(f.height, f.columns + [Column(name, cells)]);
      && Valid(r)
      && Get(r, name) == Some(cells)
      && (forall c :: c in f.columns ==> c in r.columns)
      && (forall c :: c in r.columns && c.name != name ==> c in f.columns)
      && Names(r.columns) == Names(f.columns) + [name]
  {
    var r := Frame(f.height, f.columns + [Column(name, cells)]);
    assert r.columns[|f.columns|] == Column(name, cells);
    forall i, j | 0 <= i < j < |r.columns| ensures r.columns[i].name != r.columns[j].name {
      if j == |f.columns| {
        assert r.columns[i] in f.columns;
      } else {
        assert r.columns[i] == f.columns[i] && r.columns[j] == f.columns[j];
        NamesDiffer(f.columns, i, j);
      }
    }
    GetMember(r, Column(name, cells));
    assert Names(r.columns) == Names(f.columns) + [name];
  }

  // ---------------------------------------------------------------------------------------------
  // Selecting columns

  /** The elements of `s` that satisfy `p`, in their order: a boolean column mask, a list
      comprehension with a condition. */
  function Filter<T(!new)>(s: seq<T>, p: T -> bool): (r: seq<T>)
    ensures |r| <= |s|
    ensures forall x :: x in r <==> x in s && p(x)
  {
    if |s| == 0 then [] else (if p(s[0]) then [s[0]] else []) + Filter(s[1..], p)
  }

  function Not<T>(p: T -> bool): T -> bool {
    x => !p(x)
  }

  /** `b` keeps some of the elements of `a`, in their order. */
  predicate IsSubsequence<T(==)>(a: seq<T>, b: seq<T>) {
    |a| == 0 || (|b| > 0 && ((a[0] == b[0] && IsSubsequence(a[1..], b[1..])) || IsSubsequence(a, b[1..])))
  }

  lemma {:induction false} FilterIsSubsequence<T(!new)>(s: seq<T>, p: T -> bool)
    ensures IsSubsequence(Filter(s, p), s)
  {
    if |s| > 0 {
      FilterIsSubsequence(s[1..], p);
      var r := Filter(s, p);
      if p(s[0]) {
        assert r[0] == s[0] && r[1..] == Filter(s[1..], p);
      } else {
        assert r == Filter(s[1..], p);
      }
    }
  }

  lemma {:induction false} FilterAppend<T(!new)>(a: seq<T>, b: seq<T>, p: T -> bool)
    ensures Filter(a + b, p) == Filter(a, p) + Filter(b, p)
  {
    if |a| == 0 {
      assert a + b == b;
    } else {
      assert (a + b)[0] == a[0] && (a + b)[1..] == a[1..] + b;
      FilterAppend(a[1..], b, p);
    }
  }

  /** Nothing is removed when every element passes. */
  lemma {:induction false} FilterKeepsAll<T(!new)>(s: seq<T>, p: T -> bool)
    requires forall x :: x in s ==> p(x)
    ensures Filter(s, p) == s
  {
    if |s| > 0 {
      FilterKeepsAll(s[1..], p);
      assert [s[0]] + s[1..] == s;
    }
  }

  /** Filtering twice by the same test is filtering once. */
  lemma FilterTwice<T(!new)>(s: seq<T>, p: T -> bool)
    ensures Filter(Filter(s, p), p) == Filter(s, p)
  {
    FilterKeepsAll(Filter(s, p), p);
  }

  /** The elements that pass and those that fail make up the input, each element as often. */
  lemma {:induction false} FilterSplitsMultiset<T(!new)>(s: seq<T>, p: T -> bool)
    ensures multiset(Filter(s, p)) + multiset(Filter(s, Not(p))) == multiset(s)
  {
    if |s| > 0 {
      var rest := s[1..];
      FilterSplitsMultiset(rest, p);
      assert s == [s[0]] + rest;
      if p(s[0]) {
        assert Filter(s, p) == [s[0]] + Filter(rest, p);
        assert Filter(s, Not(p)) == Filter(rest, Not(p));
      } else {
        assert Filter(s, p) == Filter(rest, p);
        assert Filter(s, Not(p)) == [s[0]] + Filter(rest, Not(p));
      }
      SplitCons(s[0], rest, Filter(rest, p), Filter(rest, Not(p)), Filter(s, p), Filter(s, Not(p)), p(s[0]));
    }
  }

  /** One more element goes to one side of a split of `rest`. */
  lemma SplitCons<T>(x: T, rest: seq<T>, yes: seq<T>, no: seq<T>, yes': seq<T>, no': seq<T>, passes: bool)
    requires multiset(yes) + multiset(no) == multiset(rest)
    requires passes ==> yes' == [x] + yes && no' == no
    requires !passes ==> yes' == yes && no' == [x] + no
    ensures multiset(yes') + multiset(no') == multiset([x] + rest)
  {
  }

  lemma {:induction false} FilterUnique(cols: seq<Column>, p: Column -> bool)
    requires UniqueNames(cols)
    ensures UniqueNames(Filter(cols, p))
  {
    if |cols| > 0 {
      UniqueTail(cols);
      FilterUnique(cols[1..], p);
      var rest := Filter(cols[1..], p);
      if p(cols[0]) {
        var r := [cols[0]] + rest;
        assert Filter(cols, p) == r;
        forall i, j | 0 <= i < j < |r| ensures NameAt(r, i) != NameAt(r, j) {
          if i == 0 {
            assert r[j] in rest;
            var k :| 0 <= k < |cols[1..]| && cols[1..][k] == r[j];
            assert cols[k + 1] == r[j];
            NamesDiffer(cols, 0, k + 1);
          } else {
            assert r[i] == rest[i - 1] && r[j] == rest[j - 1];
            NamesDiffer(rest, i - 1, j - 1);
          }
        }
      } else {
        assert Filter(cols, p) == rest;
      }
    }
  }

  /** Keeping whole columns keeps a frame valid. */
  lemma FilterValid(f: Frame, p: Column -> bool)
    requires Valid(f)
    ensures Valid(Frame(f.height, Filter(f.columns, p)))
  {
    FilterUnique(f.columns, p);
  }

  // ---------------------------------------------------------------------------------------------
  // pd.concat(frames, ignore_index=True)

  function TotalHeight(frames: seq<Frame>): nat {
    if |frames| == 0 then 0 else frames[0].height + TotalHeight(frames[1..])
  }

  /** Frames of the same heights, one for one, have as many rows in all. */
  lemma {:induction false} SameHeights(a: seq<Frame>, b: seq<Frame>)
    requires |a| == |b| && forall x :: 0 <= x < |a| ==> a[x].height == b[x].height
    ensures TotalHeight(a) == TotalHeight(b)
  {
    if |a| > 0 {
      assert forall x :: 0 <= x < |a| - 1 ==> a[1..][x] == a[x + 1] && b[1..][x] == b[x + 1];
      SameHeights(a[1..], b[1..]);
    }
  }

  lemma {:induction false} TotalHeightAppend(a: seq<Frame>, b: seq<Frame>)
    ensures TotalHeight(a + b) == TotalHeight(a) + TotalHeight(b)
  {
    if |a| == 0 {
      assert a + b == b;
    } else {
      assert (a + b)[0] == a[0] && (a + b)[1..] == a[1..] + b;
      TotalHeightAppend(a[1..], b);
    }
  }

  /** The first row of `frames[k]` in the concatenation. */
  function Offset(frames: seq<Frame>, k: nat): nat
    requires k <= |frames|
  {
    if k == 0 then 0 else frames[0].height + Offset(frames[1..], k - 1)
  }

  predicate AllValid(frames: seq<Frame>) {
    forall k :: 0 <= k < |frames| ==> Valid(frames[k])
  }

  /** A frame's column, or all-missing cells when it has no column of that name. */
  function CellsOrMissing(f: Frame, name: string): (cells: seq<Cell>)
    requires Valid(f)
    ensures |cells| == f.height
  {
    match Get(f, name)
    case Some(cells) => cells
    case None => Missing(f.height)
  }

  /** The cells of one output column: each frame's column of that name, one after the other. */
  function Stack(frames: seq<Frame>, name: string): (cells: seq<Cell>)
    requires AllValid(frames)
    ensures |cells| == TotalHeight(frames)
  {
    if |frames| == 0 then [] else CellsOrMissing(frames[0], name) + Stack(frames[1..], name)
  }

  /** Row `i` of `frames[k]` is row `Offset(frames, k) + i` of the concatenation. */
  lemma {:induction false} StackAt(frames: seq<Frame>, name: string, k: nat, i: nat)
    requires AllValid(frames) && k < |frames| && i < frames[k].height
    ensures Offset(frames, k) + i < TotalHeight(frames)
    ensures Stack(frames, name)[Offset(frames, k) + i] == CellsOrMissing(frames[k], name)[i]
    decreases |frames|, 1
  {
    if k > 0 {
      StackAtStep(frames, name, k, i);
    } else {
      StackAtFirst(frames, name, i);
    }
  }

  /** The rows of the first frame open the concatenation. */
  lemma StackAtFirst(frames: seq<Frame>, name: string, i: nat)
    requires AllValid(frames) && 0 < |frames| && i < frames[0].height
    ensures Offset(frames, 0) + i < TotalHeight(frames)
    ensures Stack(frames, name)[Offset(frames, 0) + i] == CellsOrMissing(frames[0], name)[i]
  {
    var head, tail := CellsOrMissing(frames[0], name), Stack(frames[1..], name);
    assert Stack(frames, name) == head + tail;
    assert (head + tail)[i] == head[i];
  }

  /** Frame `k` of a list is frame `k - 1` of its tail. */
  lemma TailAt(frames: seq<Frame>, k: nat)
    requires AllValid(frames) && 0 < k < |frames|
    ensures AllValid(frames[1..]) && frames[1..][k - 1] == frames[k]
  {
    AllValidTail(frames);
  }

  lemma AllValidTail(frames: seq<Frame>)
    requires AllValid(frames) && |frames| > 0
    ensures AllValid(frames[1..])
  {
    forall x | 0 <= x < |frames| - 1 ensures Valid(frames[1..][x]) {
      assert frames[1..][x] == frames[x + 1];
    }
  }

  /** A row of a frame after the first: it is a row of the tail's stack, placed after the first
      frame's rows. */
  lemma StackAtStep(frames: seq<Frame>, name: string, k: nat, i: nat)
    requires AllValid(frames) && 0 < k < |frames| && i < frames[k].height
    ensures Offset(frames, k) + i < TotalHeight(frames)
    ensures Stack(frames, name)[Offset(frames, k) + i] == CellsOrMissing(frames[k], name)[i]
    decreases |frames|, 0
  {
    TailAt(frames, k);
    StackAt(frames[1..], name, k - 1, i);
    var head, tail := CellsOrMissing(frames[0], name), Stack(frames[1..], name);
    var j := Offset(frames[1..], k - 1) + i;
    assert Stack(frames, name) == head + tail;
    assert Offset(frames, k) + i == |head| + j;
    assert (head + tail)[|head| + j] == tail[j];
  }

  /** `acc` followed by the names of `names` it does not hold yet, in their order. */
  function AddNew(acc: seq<string>, names: seq<string>): (r: seq<string>)
    decreases |names|
    ensures |acc| <= |r| && r[..|acc|] == acc
    ensures forall n :: n in r <==> n in acc || n in names
    ensures (forall i, j :: 0 <= i < j < |acc| ==> acc[i] != acc[j]) ==>
              forall i, j :: 0 <= i < j < |r| ==> r[i] != r[j]
  {
    if |names| == 0 then acc
    else AddNew(if names[0] in acc then acc else acc + [names[0]], names[1..])
  }

  /** Some frame of the list has a column called `n`. */
  predicate InSome(frames: seq<Frame>, n: string) {
    exists k :: 0 <= k < |frames| && HasColumn(frames[k], n)
  }

  lemma InSomeFirstOrRest(frames: seq<Frame>, n: string)
    requires |frames| > 0
    ensures InSome(frames, n) <==> HasColumn(frames[0], n) || InSome(frames[1..], n)
  {
    if InSome(frames[1..], n) {
      var k :| 0 <= k < |frames[1..]| && HasColumn(frames[1..][k], n);
      assert HasColumn(frames[k + 1], n);
    }
    if InSome(frames, n) && !HasColumn(frames[0], n) {
      var k :| 0 <= k < |frames| && HasColumn(frames[k], n);
      assert HasColumn(frames[1..][k - 1], n);
    }
  }

  lemma NamesAreColumns(f: Frame, n: string)
    ensures n in Names(f.columns) <==> HasColumn(f, n)
  {
    if HasColumn(f, n) {
      var c :| c in f.columns && c.name == n;
      var j :| 0 <= j < |f.columns| && f.columns[j] == c;
      assert Names(f.columns)[j] == n;
    }
  }

  /** The column names of the concatenation: first appearance order across the frames. */
  function UnionNames(acc: seq<string>, frames: seq<Frame>): (r: seq<string>)
    ensures |acc| <= |r| && r[..|acc|] == acc
    ensures forall n :: n in r <==> n in acc || InSome(frames, n)
    ensures (forall i, j :: 0 <= i < j < |acc| ==> acc[i] != acc[j]) ==>
              forall i, j :: 0 <= i < j < |r| ==> r[i] != r[j]
    decreases |frames|
  {
    if |frames| == 0 then acc
    else
      var r := UnionNames(AddNew(acc, Names(frames[0].columns)), frames[1..]);
      assert forall n :: n in r <==> n in acc || InSome(frames, n) by {
        forall n ensures n in r <==> n in acc || InSome(frames, n) {
          InSomeFirstOrRest(frames, n);
          NamesAreColumns(frames[0], n);
        }
      }
      r
  }

  /** `pd.concat(frames, ignore_index=True)` of a non-empty list: the rows of every frame in turn,
      under the union of their column names; a frame without some column gets missing cells there. */
  function Concat(frames: seq<Frame>): (r: Frame)
    requires AllValid(frames)
    ensures Valid(r) && r.height == TotalHeight(frames)
    ensures forall n :: HasColumn(r, n) <==> InSome(frames, n)
    ensures forall n :: HasColumn(r, n) ==> Get(r, n) == Some(Stack(frames, n))
  {
    var names := UnionNames([], frames);
    StackedColumns(frames, names);
    Frame(TotalHeight(frames), seq(|names|, i requires 0 <= i < |names| => Column(names[i], Stack(frames, names[i]))))
  }

  /** The columns of the concatenation come in order of first appearance in the frames' column
      lists read one after the other: the first frame's columns lead, in their own order, each
      later frame's new columns follow in its order, and when no later frame brings a new column
      the first frame's columns are all the columns. */
  lemma ConcatColumnOrder(frames: seq<Frame>)
    requires AllValid(frames) && |frames| > 0
    ensures FirstSeenOrder(Names(Concat(frames).columns), 0, AllNames(frames))
    ensures |frames[0].columns| <= |Concat(frames).columns|
    ensures Names(Concat(frames).columns)[..|frames[0].columns|] == Names(frames[0].columns)
    ensures (forall k, n :: 0 <= k < |frames| && HasColumn(frames[k], n) ==> HasColumn(frames[0], n)) ==>
              Names(Concat(frames).columns) == Names(frames[0].columns)
  {
    var first := Names(frames[0].columns);
    assert frames[0] in frames;
    forall i, j | 0 <= i < j < |first| ensures first[i] != first[j] {
      assert NameAt(frames[0].columns, i) != NameAt(frames[0].columns, j);
    }
    AddNewFresh([], first);
    var names := UnionNames([], frames);
    assert names == UnionNames(first, frames[1..]);
    assert Names(Concat(frames).columns) == names;
    UnionNamesFlat([], frames);
    AddNewOrder([], AllNames(frames));
    if forall k, n :: 0 <= k < |frames| && HasColumn(frames[k], n) ==> HasColumn(frames[0], n) {
      forall k, n | 0 <= k < |frames[1..]| && HasColumn(frames[1..][k], n) ensures n in first {
        assert frames[1..][k] == frames[k + 1];
        NamesAreColumns(frames[0], n);
      }
      UnionNamesHeld(first, frames[1..]);
    }
  }

  /** The column names of the frames, one list after the other. */
  function AllNames(frames: seq<Frame>): (r: seq<string>)
    ensures forall n :: n in r <==> InSome(frames, n)
    decreases |frames|
  {
    if |frames| == 0 then []
    else
      var r := Names(frames[0].columns) + AllNames(frames[1..]);
      assert forall n :: n in r <==> InSome(frames, n) by {
        forall n ensures n in r <==> InSome(frames, n) {
          InSomeFirstOrRest(frames, n);
          NamesAreColumns(frames[0], n);
        }
      }
      r
  }

  /** The position of the first `n` in `s`, or `|s|` when there is none. */
  function FirstIndex(s: seq<string>, n: string): (r: nat)
    ensures r <= |s| && (r < |s| <==> n in s)
    ensures r < |s| ==> s[r] == n
    ensures forall k :: 0 <= k < r ==> s[k] != n
  {
    if |s| == 0 then 0
    else if s[0] == n then 0
    else 1 + FirstIndex(s[1..], n)
  }

  /** From position `from` on, `r` holds names of `names` that `acc` does not hold. */
  predicate NewFrom(r: seq<string>, from: nat, acc: seq<string>, names: seq<string>) {
    forall i :: from <= i < |r| ==> r[i] !in acc && r[i] in names
  }

  /** From position `from` on, `r` lists names in the order they first appear in `names`. */
  predicate FirstSeenOrder(r: seq<string>, from: nat, names: seq<string>) {
    forall i, j :: from <= i < j < |r| ==> FirstIndex(names, r[i]) < FirstIndex(names, r[j])
  }

  /** The names `AddNew` appends come after `acc`, are not in `acc`, are in `names`, and are in the
      order in which they first appear in `names`. */
  lemma {:induction false} AddNewOrder(acc: seq<string>, names: seq<string>)
    ensures NewFrom(AddNew(acc, names), |acc|, acc, names)
    ensures FirstSeenOrder(AddNew(acc, names), |acc|, names)
    decreases |names|
  {
    if |names| > 0 {
      var acc' := if names[0] in acc then acc else acc + [names[0]];
      var r := AddNew(acc, names);
      assert r == AddNew(acc', names[1..]);
      AddNewOrder(acc', names[1..]);
      OrderStep(acc, names, acc', r);
    }
  }

  /** One name in front of the list: it is added first unless held, and every later name's first
      position moves up by one. */
  lemma OrderStep(acc: seq<string>, names: seq<string>, acc': seq<string>, r: seq<string>)
    requires |names| > 0
    requires acc' == if names[0] in acc then acc else acc + [names[0]]
    requires |acc'| <= |r| && r[..|acc'|] == acc'
    requires NewFrom(r, |acc'|, acc', names[1..]) && FirstSeenOrder(r, |acc'|, names[1..])
    ensures NewFrom(r, |acc|, acc, names) && FirstSeenOrder(r, |acc|, names)
  {
    forall i | |acc| <= i < |r| ensures r[i] !in acc && r[i] in names {
      if i >= |acc'| {
        assert r[i] !in acc' && r[i] in names[1..];
      } else {
        assert r[i] == r[..|acc'|][i] == names[0];
      }
    }
    forall i, j | |acc| <= i < j < |r| ensures FirstIndex(names, r[i]) < FirstIndex(names, r[j]) {
      assert r[j] !in acc';
      assert FirstIndex(names, r[j]) == 1 + FirstIndex(names[1..], r[j]);
      if i >= |acc'| {
        assert r[i] !in acc';
        assert FirstIndex(names, r[i]) == 1 + FirstIndex(names[1..], r[i]);
      } else {
        assert r[i] == r[..|acc'|][i] == names[0];
      }
    }
  }

  /** Adding two lists of names is adding the first, then the second. */
  lemma {:induction false} AddNewAppend(acc: seq<string>, x: seq<string>, y: seq<string>)
    ensures AddNew(acc, x + y) == AddNew(AddNew(acc, x), y)
    decreases |x|
  {
    if |x| == 0 {
      assert x + y == y;
    } else {
      var acc' := if x[0] in acc then acc else acc + [x[0]];
      assert (x + y)[0] == x[0] && (x + y)[1..] == x[1..] + y;
      assert AddNew(acc, x + y) == AddNew(acc', x[1..] + y);
      AddNewAppend(acc', x[1..], y);
    }
  }

  /** The union of the frames' names is `AddNew` of all their names read one after the other. */
  lemma {:induction false} UnionNamesFlat(acc: seq<string>, frames: seq<Frame>)
    ensures UnionNames(acc, frames) == AddNew(acc, AllNames(frames))
    decreases |frames|
  {
    if |frames| > 0 {
      var first := Names(frames[0].columns);
      UnionNamesFlat(AddNew(acc, first), frames[1..]);
      AddNewAppend(acc, first, AllNames(frames[1..]));
    }
  }

  /** Names that are all new and distinct are appended in their order. */
  lemma {:induction false} AddNewFresh(acc: seq<string>, names: seq<string>)
    requires forall i :: 0 <= i < |names| ==> names[i] !in acc
    requires forall i, j :: 0 <= i < j < |names| ==> names[i] != names[j]
    ensures AddNew(acc, names) == acc + names
    decreases |names|
  {
    if |names| > 0 {
      forall i | 0 <= i < |names[1..]| ensures names[1..][i] !in acc + [names[0]] {
        assert names[1..][i] == names[i + 1];
      }
      assert names[0] !in acc;
      assert AddNew(acc, names) == AddNew(acc + [names[0]], names[1..]);
      AddNewFresh(acc + [names[0]], names[1..]);
      AppendHead(acc, names);
    }
  }

  lemma AppendHead(acc: seq<string>, names: seq<string>)
    requires |names| > 0
    ensures acc + [names[0]] + names[1..] == acc + names
  {
  }

  /** Frames whose column names are all held add no name. */
  lemma {:induction false} UnionNamesHeld(acc: seq<string>, frames: seq<Frame>)
    requires forall k, n :: 0 <= k < |frames| && HasColumn(frames[k], n) ==> n in acc
    ensures UnionNames(acc, frames) == acc
    decreases |frames|
  {
    if |frames| > 0 {
      var names := Names(frames[0].columns);
      forall i | 0 <= i < |names| ensures names[i] in acc {
        NamesAreColumns(frames[0], names[i]);
      }
      AddNewHeld(acc, names);
      forall k, n | 0 <= k < |frames[1..]| && HasColumn(frames[1..][k], n) ensures n in acc {
        assert frames[1..][k] == frames[k + 1];
      }
      UnionNamesHeld(acc, frames[1..]);
    }
  }

  /** Names that are all held already add nothing. */
  lemma {:induction false} AddNewHeld(acc: seq<string>, names: seq<string>)
    requires forall i :: 0 <= i < |names| ==> names[i] in acc
    ensures AddNew(acc, names) == acc
    decreases |names|
  {
    if |names| > 0 {
      AddNewHeld(acc, names[1..]);
    }
  }

  /** One stacked column per name of a list without repeats makes a valid frame with exactly those
      names. */
  lemma StackedColumns(frames: seq<Frame>, names: seq<string>)
    requires AllValid(frames) && forall i, j :: 0 <= i < j < |names| ==> names[i] != names[j]
    ensures var r := Frame(TotalHeight(frames), seq(|names|, i requires 0 <= i < |names| => Column(names[i], Stack(frames, names[i]))));
      && Valid(r)
      && (forall n :: HasColumn(r, n) <==> n in names)
      && (forall n :: HasColumn(r, n) ==> Get(r, n) == Some(Stack(frames, n)))
  {
    var r := Frame(TotalHeight(frames), seq(|names|, i requires 0 <= i < |names| => Column(names[i], Stack(frames, names[i]))));
    forall a, b | 0 <= a < b < |r.columns| ensures NameAt(r.columns, a) != NameAt(r.columns, b) {
      assert r.columns[a].name == names[a] && r.columns[b].name == names[b];
    }
    assert forall n :: HasColumn(r, n) <==> n in names by {
      forall n ensures HasColumn(r, n) <==> n in names {
        if n in names {
          var i :| 0 <= i < |names| && names[i] == n;
          assert r.columns[i].name == n;
        }
      }
    }
    forall n | HasColumn(r, n) ensures Get(r, n) == Some(Stack(frames, n)) {
      var i := IndexOf(r.columns, n);
      assert r.columns[i] == Column(names[i], Stack(frames, names[i]));
    }
  }

  /** Row `i` of `frames[k]` is row `Offset(frames, k) + i` of the concatenation, in every column;
      a frame that lacks a column contributes missing cells to it. */
  lemma ConcatRow(frames: seq<Frame>, name: string, k: nat, i: nat)
    requires AllValid(frames) && k < |frames| && i < frames[k].height
    requires HasColumn(frames[k], name)
    ensures Offset(frames, k) + i < Concat(frames).height
    ensures Get(Concat(frames), name).Some?
    ensures Get(Concat(frames), name).value[Offset(frames, k) + i] == Get(frames[k], name).value[i]
  {
    StackAt(frames, name, k, i);
  }
}

=== FILE: join.dfy ===
/** The left join of the combined profiles with the compound identity table on the batch id
    (`df_combined.merge(oasis_id, on="Metadata_batch_id", how="left")`).

    The join is described by its links: each row of the result comes from one row of the
    profiles and from one row of the identity table, or from none. The cells of the result are
    then read through the links. */
module Join {
  import opened Wrappers
  import opened Frames
  import opened Columns

  /** One row of the identity table after the renaming: the OASIS id, the Broad id (under the
      batch id name) and the preferred compound name. */
  datatype Identity = Identity(oasisId: Cell, batchId: Cell, preferredName: Cell)

  /** A batch id is unique in the identity table. A missing batch id matches a missing one, as in
      a pandas merge, so two rows without a batch id are not unique either. */
  predicate UniqueBatchIds(ids: seq<Identity>) {
    forall a, b {:trigger BatchIdAt(ids, a), BatchIdAt(ids, b)} ::
      0 <= a < b < |ids| ==> BatchIdAt(ids, a) != BatchIdAt(ids, b)
  }

  /** Two rows with the same batch id are the same row. */
  lemma SameBatchId(ids: seq<Identity>, a: nat, b: nat)
    requires UniqueBatchIds(ids) && a < |ids| && b < |ids| && BatchIdAt(ids, a) == BatchIdAt(ids, b)
    ensures a == b
  {
  }

  /** The batch id of row `a`; uniqueness is stated through it so that it is only applied to the
      rows a proof names. */
  function BatchIdAt(ids: seq<Identity>, a: nat): Cell
    requires a < |ids|
  {
    ids[a].batchId
  }

  /** The rows among the first `n` of the identity table whose batch id is `key`, in table
      order. */
  function MatchesBelow(ids: seq<Identity>, key: Cell, n: nat): (r: seq<nat>)
    requires n <= |ids|
    ensures forall k :: 0 <= k < |r| ==> r[k] < n && ids[r[k]].batchId == key
  {
    if n == 0 then []
    else MatchesBelow(ids, key, n - 1) + (if ids[n - 1].batchId == key then [n - 1] else [])
  }

  /** The identity rows whose batch id is `key`, in table order. */
  function Matches(ids: seq<Identity>, key: Cell): (r: seq<nat>)
    ensures forall k :: 0 <= k < |r| ==> r[k] < |ids| && ids[r[k]].batchId == key
  {
    MatchesBelow(ids, key, |ids|)
  }

  predicate Increasing(r: seq<nat>) {
    forall a, b :: 0 <= a < b < |r| ==> r[a] < r[b]
  }

  /** The matches come in table order. */
  lemma {:induction false} MatchesBelowOrdered(ids: seq<Identity>, key: Cell, n: nat)
    requires n <= |ids|
    ensures Increasing(MatchesBelow(ids, key, n))
  {
    if n > 0 {
      MatchesBelowOrdered(ids, key, n - 1);
      var init := MatchesBelow(ids, key, n - 1);
      var r := MatchesBelow(ids, key, n);
      assert r == init + (if ids[n - 1].batchId == key then [n - 1] else []);
      forall a, b | 0 <= a < b < |r| ensures r[a] < r[b] {
        assert r[a] == init[a];
        if b >= |init| {
          assert r[b] == n - 1 && init[a] < n - 1;
        } else {
          assert r[b] == init[b] && init[a] < init[b];
        }
      }
    }
  }

  lemma MatchesOrdered(ids: seq<Identity>, key: Cell)
    ensures Increasing(Matches(ids, key))
  {
    MatchesBelowOrdered(ids, key, |ids|);
    assert Matches(ids, key) == MatchesBelow(ids, key, |ids|);
  }

  /** No identity with the key is missed. */
  lemma {:induction false} MatchesBelowComplete(ids: seq<Identity>, key: Cell, n: nat, j: nat)
    requires n <= |ids| && j < n && ids[j].batchId == key
    ensures j in MatchesBelow(ids, key, n)
  {
    if j < n - 1 {
      MatchesBelowComplete(ids, key, n - 1, j);
    }
  }

  lemma MatchesComplete(ids: seq<Identity>, key: Cell, j: nat)
    requires j < |ids| && ids[j].batchId == key
    ensures j in Matches(ids, key)
  {
    MatchesBelowComplete(ids, key, |ids|, j);
  }

  /** Where one row of the join comes from: a row of the profiles, and the identity row it was
      matched with, if any. */
  datatype Link = Link(left: nat, right: Option<nat>)

  /** The rows of the join that come from row `i` of the profiles: one per matching identity, in
      table order, or a single unmatched one. */
  function RowLinks(i: nat, matches: seq<nat>): (links: seq<Link>)
    ensures |matches| == 0 ==> links == [Link(i, None)]
    ensures |matches| > 0 ==> |links| == |matches| && forall k :: 0 <= k < |matches| ==> links[k] == Link(i, Some(matches[k]))
  {
    if |matches| == 0 then [Link(i, None)]
    else seq(|matches|, k requires 0 <= k < |matches| => Link(i, Some(matches[k])))
  }

  /** Every link points at a profile row in `[lo, hi)` and, if matched, at one of `m` identities. */
  predicate InBounds(links: seq<Link>, lo: nat, hi: nat, m: nat) {
    forall k :: 0 <= k < |links| ==>
      && lo <= links[k].left < hi
      && (links[k].right.Some? ==> links[k].right.value < m)
  }

  /** The links of the profile rows from row `i` on. */
  function LinksFrom(keys: seq<Cell>, ids: seq<Identity>, i: nat): (links: seq<Link>)
    requires i <= |keys|
    ensures InBounds(links, i, |keys|, |ids|)
    decreases |keys| - i
  {
    if i == |keys| then []
    else
      var row := RowLinks(i, Matches(ids, keys[i]));
      var rest := LinksFrom(keys, ids, i + 1);
      InBoundsAppend(row, rest, i, |keys|, |ids|);
      row + rest
  }

  lemma InBoundsAppend(row: seq<Link>, rest: seq<Link>, i: nat, hi: nat, m: nat)
    requires i < hi && InBounds(row, i, i + 1, m) && InBounds(rest, i + 1, hi, m)
    ensures InBounds(row + rest, i, hi, m)
  {
    forall k | 0 <= k < |row + rest|
      ensures i <= (row + rest)[k].left < hi
      ensures (row + rest)[k].right.Some? ==> (row + rest)[k].right.value < m
    {
      if k < |row| {
        assert (row + rest)[k] == row[k];
      } else {
        assert (row + rest)[k] == rest[k - |row|];
      }
    }
  }

  /** The links of the whole join, row after row of the profiles. */
  function JoinLinks(keys: seq<Cell>, ids: seq<Identity>): (links: seq<Link>)
    ensures forall k :: 0 <= k < |links| ==> links[k].left < |keys|
    ensures forall k :: 0 <= k < |links| && links[k].right.Some? ==> links[k].right.value < |ids|
  {
    LinksFrom(keys, ids, 0)
  }

  /** A row of the join pairs its profile row with an identity of the same batch id, or with none
      when no identity has that batch id. */
  predicate SoundLink(keys: seq<Cell>, ids: seq<Identity>, l: Link) {
    && l.left < |keys|
    && if l.right.Some?
       then l.right.value < |ids| && ids[l.right.value].batchId == keys[l.left]
       else forall j :: 0 <= j < |ids| ==> ids[j].batchId != keys[l.left]
  }

  /** A row of the join that comes from profile row `i` is sound. */
  lemma RowLinkSound(keys: seq<Cell>, ids: seq<Identity>, i: nat, k: nat)
    requires i < |keys| && k < |RowLinks(i, Matches(ids, keys[i]))|
    ensures SoundLink(keys, ids, RowLinks(i, Matches(ids, keys[i]))[k])
  {
    var m := Matches(ids, keys[i]);
    if |m| == 0 {
      forall j | 0 <= j < |ids| ensures ids[j].batchId != keys[i] {
        if ids[j].batchId == keys[i] {
          MatchesComplete(ids, keys[i], j);
        }
      }
    }
  }

  /** The `k`-th link from profile row `i` on is sound. */
  lemma {:induction false} LinksFromSound(keys: seq<Cell>, ids: seq<Identity>, i: nat, k: nat)
    requires i < |keys| && k < |LinksFrom(keys, ids, i)|
    ensures SoundLink(keys, ids, LinksFrom(keys, ids, i)[k])
    decreases |keys| - i
  {
    var row := RowLinks(i, Matches(ids, keys[i]));
    var rest := LinksFrom(keys, ids, i + 1);
    assert LinksFrom(keys, ids, i) == row + rest;
    if k < |row| {
      assert (row + rest)[k] == row[k];
      RowLinkSound(keys, ids, i, k);
    } else {
      assert (row + rest)[k] == rest[k - |row|];
      assert i + 1 <= rest[k - |row|].left < |keys|;
      LinksFromSound(keys, ids, i + 1, k - |row|);
    }
  }

  /** Every row of the join pairs a profile row with an identity of the same batch id, or with
      none when no identity has that batch id. */
  lemma JoinLinksSound(keys: seq<Cell>, ids: seq<Identity>)
    ensures forall k :: 0 <= k < |JoinLinks(keys, ids)| ==> SoundLink(keys, ids, JoinLinks(keys, ids)[k])
  {
    forall k | 0 <= k < |JoinLinks(keys, ids)| ensures SoundLink(keys, ids, JoinLinks(keys, ids)[k]) {
      LinksFromSound(keys, ids, 0, k);
    }
  }

  lemma {:induction false} LinksFromHasMatch(keys: seq<Cell>, ids: seq<Identity>, i: nat, r: nat, j: nat)
    requires i <= r < |keys| && j < |ids| && ids[j].batchId == keys[r]
    ensures Link(r, Some(j)) in LinksFrom(keys, ids, i)
    decreases |keys| - i
  {
    var row := RowLinks(i, Matches(ids, keys[i]));
    var rest := LinksFrom(keys, ids, i + 1);
    assert LinksFrom(keys, ids, i) == row + rest;
    if r == i {
      var m := Matches(ids, keys[i]);
      MatchesComplete(ids, keys[i], j);
      var k :| 0 <= k < |m| && m[k] == j;
      assert row[k] == Link(r, Some(j));
    } else {
      LinksFromHasMatch(keys, ids, i + 1, r, j);
    }
  }

  lemma {:induction false} LinksFromHasUnmatched(keys: seq<Cell>, ids: seq<Identity>, i: nat, r: nat)
    requires i <= r < |keys| && forall j :: 0 <= j < |ids| ==> ids[j].batchId != keys[r]
    ensures Link(r, None) in LinksFrom(keys, ids, i)
    decreases |keys| - i
  {
    var m := Matches(ids, keys[i]);
    var row := RowLinks(i, m);
    var rest := LinksFrom(keys, ids, i + 1);
    assert LinksFrom(keys, ids, i) == row + rest;
    if r == i {
      assert row[0] == Link(r, None);
    } else {
      LinksFromHasUnmatched(keys, ids, i + 1, r);
    }
  }

  /** Every pair of a profile row and an identity with its batch id is a row of the join, and so
      is every profile row no identity matches. */
  lemma JoinLinksComplete(keys: seq<Cell>, ids: seq<Identity>)
    ensures forall r, j :: 0 <= r < |keys| && 0 <= j < |ids| && ids[j].batchId == keys[r] ==>
              Link(r, Some(j)) in JoinLinks(keys, ids)
    ensures forall r :: 0 <= r < |keys| && (forall j :: 0 <= j < |ids| ==> ids[j].batchId != keys[r]) ==>
              Link(r, None) in JoinLinks(keys, ids)
  {
    forall r, j | 0 <= r < |keys| && 0 <= j < |ids| && ids[j].batchId == keys[r] ensures Link(r, Some(j)) in JoinLinks(keys, ids) {
      LinksFromHasMatch(keys, ids, 0, r, j);
    }
    forall r | 0 <= r < |keys| && (forall j :: 0 <= j < |ids| ==> ids[j].batchId != keys[r])
      ensures Link(r, None) in JoinLinks(keys, ids)
    {
      LinksFromHasUnmatched(keys, ids, 0, r);
    }
  }

  /** Rows of the join come in profile order and, for one profile row, in identity-table order. */
  predicate Before(a: Link, b: Link) {
    || a.left < b.left
    || (a.left == b.left && a.right.Some? && b.right.Some? && a.right.value < b.right.value)
  }

  /** Rows of the join listed in join order. */
  predicate Ordered(links: seq<Link>) {
    forall a, b :: 0 <= a < b < |links| ==> Before(links[a], links[b])
  }

  lemma {:induction false} LinksFromOrdered(keys: seq<Cell>, ids: seq<Identity>, i: nat)
    requires i <= |keys|
    ensures Ordered(LinksFrom(keys, ids, i))
    decreases |keys| - i
  {
    if i < |keys| {
      LinksFromOrdered(keys, ids, i + 1);
      var m := Matches(ids, keys[i]);
      MatchesOrdered(ids, keys[i]);
      RowLinksOrdered(i, m);
      var row := RowLinks(i, m);
      var rest := LinksFrom(keys, ids, i + 1);
      OrderedAppend(row, rest, i);
      assert LinksFrom(keys, ids, i) == row + rest;
    }
  }

  /** The links of one profile row are ordered when its matches are. */
  lemma RowLinksOrdered(i: nat, m: seq<nat>)
    requires Increasing(m)
    ensures Ordered(RowLinks(i, m))
    ensures forall k :: 0 <= k < |RowLinks(i, m)| ==> RowLinks(i, m)[k].left == i
  {
  }

  /** The links of one profile row followed by those of later rows are ordered. */
  lemma OrderedAppend(row: seq<Link>, rest: seq<Link>, i: nat)
    requires Ordered(row) && Ordered(rest)
    requires forall k :: 0 <= k < |row| ==> row[k].left == i
    requires forall k :: 0 <= k < |rest| ==> rest[k].left > i
    ensures Ordered(row + rest)
  {
    var links := row + rest;
    forall a, b | 0 <= a < b < |links| ensures Before(links[a], links[b]) {
      if b < |row| {
        assert links[a] == row[a] && links[b] == row[b];
      } else if a < |row| {
        assert links[a] == row[a] && links[b] == rest[b - |row|];
      } else {
        assert links[a] == rest[a - |row|] && links[b] == rest[b - |row|];
      }
    }
  }

  /** The join lists the profile rows in their order and, within one row, its identities in table
      order. */
  lemma JoinLinksOrdered(keys: seq<Cell>, ids: seq<Identity>)
    ensures forall a, b :: 0 <= a < b < |JoinLinks(keys, ids)| ==> Before(JoinLinks(keys, ids)[a], JoinLinks(keys, ids)[b])
  {
    LinksFromOrdered(keys, ids, 0);
  }

  /** With unique batch ids, there is one link per profile row from row `i` on ... */
  lemma {:induction false} LinksFromCount(keys: seq<Cell>, ids: seq<Identity>, i: nat)
    requires UniqueBatchIds(ids) && i <= |keys|
    ensures |LinksFrom(keys, ids, i)| == |keys| - i
    decreases |keys| - i
  {
    if i < |keys| {
      UniqueRow(ids, keys[i], i);
      LinksFromCount(keys, ids, i + 1);
    }
  }

  /** ... and the `k`-th of them comes from row `i + k`. */
  lemma {:induction false} LinksFromLeft(keys: seq<Cell>, ids: seq<Identity>, i: nat, k: nat)
    requires UniqueBatchIds(ids) && i + k < |keys|
    ensures k < |LinksFrom(keys, ids, i)| && LinksFrom(keys, ids, i)[k].left == i + k
    decreases k
  {
    LinksFromHead(keys, ids, i);
    if k > 0 {
      LinksFromLeft(keys, ids, i + 1, k - 1);
    }
    ConsLeft(LinksFrom(keys, ids, i), LinksFrom(keys, ids, i + 1), i, k);
  }

  /** A link from row `i` followed by links whose `(k - 1)`-th comes from row `i + k`. */
  lemma ConsLeft(links: seq<Link>, rest: seq<Link>, i: nat, k: nat)
    requires |links| > 0 && links[0].left == i && links[1..] == rest
    requires k > 0 ==> k - 1 < |rest| && rest[k - 1].left == i + k
    ensures k < |links| && links[k].left == i + k
  {
    if k > 0 {
      assert links[k] == rest[k - 1];
    }
  }

  /** With unique batch ids, the links from row `i` on start with the one link of row `i`. */
  lemma LinksFromHead(keys: seq<Cell>, ids: seq<Identity>, i: nat)
    requires UniqueBatchIds(ids) && i < |keys|
    ensures |LinksFrom(keys, ids, i)| > 0 && LinksFrom(keys, ids, i)[0].left == i
    ensures LinksFrom(keys, ids, i)[1..] == LinksFrom(keys, ids, i + 1)
  {
    UniqueRow(ids, keys[i], i);
    var row := RowLinks(i, Matches(ids, keys[i]));
    var rest := LinksFrom(keys, ids, i + 1);
    assert LinksFrom(keys, ids, i) == row + rest;
    assert (row + rest)[0] == row[0];
    assert (row + rest)[1..] == rest;
  }

  /** With unique batch ids, the only match of an identity's batch id is that identity. */
  lemma {:induction false} MatchesBelowUnique(ids: seq<Identity>, key: Cell, n: nat, j: nat)
    requires UniqueBatchIds(ids) && n <= |ids| && j < |ids| && ids[j].batchId == key
    ensures MatchesBelow(ids, key, n) == if j < n then [j] else []
  {
    if n > 0 {
      MatchesBelowUnique(ids, key, n - 1, j);
      if n - 1 != j {
        assert BatchIdAt(ids, n - 1) != BatchIdAt(ids, j);
      }
    }
  }

  /** A batch id no identity has matches nothing. */
  lemma {:induction false} MatchesBelowNone(ids: seq<Identity>, key: Cell, n: nat)
    requires n <= |ids| && forall j :: 0 <= j < n ==> ids[j].batchId != key
    ensures MatchesBelow(ids, key, n) == []
  {
    if n > 0 {
      MatchesBelowNone(ids, key, n - 1);
    }
  }

  /** With unique batch ids, a profile row has exactly one row in the join. */
  lemma UniqueRow(ids: seq<Identity>, key: Cell, i: nat)
    requires UniqueBatchIds(ids)
    ensures |RowLinks(i, Matches(ids, key))| == 1 && RowLinks(i, Matches(ids, key))[0].left == i
  {
    if j :| 0 <= j < |ids| && ids[j].batchId == key {
      MatchesBelowUnique(ids, key, |ids|, j);
    } else {
      MatchesBelowNone(ids, key, |ids|);
    }
  }

  /** With unique batch ids in the identity table, the join keeps the profile rows one for one,
      in order. */
  lemma JoinLinksUnique(keys: seq<Cell>, ids: seq<Identity>)
    requires UniqueBatchIds(ids)
    ensures |JoinLinks(keys, ids)| == |keys|
    ensures forall k :: 0 <= k < |keys| ==> JoinLinks(keys, ids)[k].left == k
  {
    LinksFromCount(keys, ids, 0);
    forall k | 0 <= k < |keys| ensures JoinLinks(keys, ids)[k].left == k {
      LinksFromLeft(keys, ids, 0, k);
    }
  }

  /** The cells of a profile column, read through the links. */
  function Pick(cells: seq<Cell>, links: seq<Link>): (r: seq<Cell>)
    requires forall k :: 0 <= k < |links| ==> links[k].left < |cells|
    ensures |r| == |links| && forall k :: 0 <= k < |links| ==> r[k] == cells[links[k].left]
  {
    seq(|links|, k requires 0 <= k < |links| => cells[links[k].left])
  }

  /** A column of the identity table, read through the links: missing for an unmatched row. */
  function Looked(ids: seq<Identity>, links: seq<Link>, field: Identity -> Cell): (r: seq<Cell>)
    requires forall k :: 0 <= k < |links| && links[k].right.Some? ==> links[k].right.value < |ids|
    ensures |r| == |links|
    ensures forall k :: 0 <= k < |links| ==>
              r[k] == if links[k].right.Some? then field(ids[links[k].right.value]) else None
  {
    seq(|links|, k requires 0 <= k < |links| =>
      if links[k].right.Some? then field(ids[links[k].right.value]) else None)
  }

  function OasisId(x: Identity): Cell {
    x.oasisId
  }

  function PreferredName(x: Identity): Cell {
    x.preferredName
  }

  /** Every profile column read through the links, in place. */
  function PickAll(cols: seq<Column>, links: seq<Link>, h: nat): (r: seq<Column>)
    requires forall c :: c in cols ==> |c.cells| == h
    requires forall k :: 0 <= k < |links| ==> links[k].left < h
    ensures Names(r) == Names(cols)
    ensures forall k :: 0 <= k < |cols| ==> r[k] == Column(cols[k].name, Pick(cols[k].cells, links))
  {
    seq(|cols|, k requires 0 <= k < |cols| => Column(cols[k].name, Pick(cols[k].cells, links)))
  }

  /** The two identity columns the join adds after the profile columns. */
  function IdentityColumns(ids: seq<Identity>, links: seq<Link>): (r: seq<Column>)
    requires forall k :: 0 <= k < |links| && links[k].right.Some? ==> links[k].right.value < |ids|
    ensures Names(r) == [OASIS_ID, PREFERRED_NAME]
  {
    [Column(OASIS_ID, Looked(ids, links, OasisId)), Column(PREFERRED_NAME, Looked(ids, links, PreferredName))]
  }

  /** Lines 47-51 and the reads of the two identity columns on lines 54 and 56: the merge needs the
      batch id column, and when the profiles already have a column the identity table brings, pandas
      renames both copies with a suffix, so the later read of that name fails. */
  function LeftJoin(f: Frame, ids: seq<Identity>): (r: Result<Frame, Error>)
    requires Valid(f)
    ensures r.Err? <==> !HasColumn(f, BATCH_ID) || HasColumn(f, OASIS_ID) || HasColumn(f, PREFERRED_NAME)
    ensures r.Err? ==> r.error in {MissingColumn(BATCH_ID), ColumnClash(OASIS_ID), ColumnClash(PREFERRED_NAME)}
    ensures r.Ok? ==> Valid(r.value)
  {
    match Get(f, BATCH_ID)
    case None => Err(MissingColumn(BATCH_ID))
    case Some(keys) =>
      if HasColumn(f, PREFERRED_NAME) then Err(ColumnClash(PREFERRED_NAME))
      else if HasColumn(f, OASIS_ID) then Err(ColumnClash(OASIS_ID))
      else
        var links := JoinLinks(keys, ids);
        var cols := PickAll(f.columns, links, f.height) + IdentityColumns(ids, links);
        JoinedValid(f, ids, keys, links, cols);
        Ok(Frame(|links|, cols))
  }

  lemma JoinedValid(f: Frame, ids: seq<Identity>, keys: seq<Cell>, links: seq<Link>, cols: seq<Column>)
    requires Valid(f) && |keys| == f.height && links == JoinLinks(keys, ids)
    requires !HasColumn(f, OASIS_ID) && !HasColumn(f, PREFERRED_NAME)
    requires cols == PickAll(f.columns, links, f.height) + IdentityColumns(ids, links)
    ensures Valid(Frame(|links|, cols))
  {
    var picked := PickAll(f.columns, links, f.height);
    var extra := IdentityColumns(ids, links);
    PickAllValid(f, links);
    IdentityColumnsValid(ids, links);
    forall a, b | 0 <= a < |picked| && 0 <= b < |extra| ensures picked[a].name != extra[b].name {
      assert f.columns[a] in f.columns;
    }
    AppendValid(|links|, picked, extra);
  }

  /** The profile columns read through the links keep their names and have one cell per link. */
  lemma PickAllValid(f: Frame, links: seq<Link>)
    requires Valid(f) && forall k :: 0 <= k < |links| ==> links[k].left < f.height
    ensures var p := PickAll(f.columns, links, f.height);
      && Sized(p, |links|) && UniqueNames(p)
      && forall k :: 0 <= k < |p| ==> p[k].name == f.columns[k].name
  {
    var p := PickAll(f.columns, links, f.height);
    forall k | 0 <= k < |p| ensures |p[k].cells| == |links| && p[k].name == f.columns[k].name {
      assert p[k] == Column(f.columns[k].name, Pick(f.columns[k].cells, links));
    }
    forall a, b | 0 <= a < b < |p| ensures NameAt(p, a) != NameAt(p, b) {
      NamesDiffer(f.columns, a, b);
    }
  }

  /** The two identity columns have one cell per link. */
  lemma IdentityColumnsValid(ids: seq<Identity>, links: seq<Link>)
    requires forall k :: 0 <= k < |links| && links[k].right.Some? ==> links[k].right.value < |ids|
    ensures var e := IdentityColumns(ids, links);
      && Sized(e, |links|) && UniqueNames(e)
      && |e| == 2 && e[0].name == OASIS_ID && e[1].name == PREFERRED_NAME
  {
  }

  /** Two lists of columns of the same height, each with distinct names and no name in common,
      make a valid frame together. */
  lemma AppendValid(h: nat, xs: seq<Column>, ys: seq<Column>)
    requires Sized(xs, h) && Sized(ys, h) && UniqueNames(xs) && UniqueNames(ys)
    requires forall a, b :: 0 <= a < |xs| && 0 <= b < |ys| ==> xs[a].name != ys[b].name
    ensures Valid(Frame(h, xs + ys))
  {
    var cols := xs + ys;
    forall c | c in cols ensures |c.cells| == h {
      var k :| 0 <= k < |cols| && cols[k] == c;
      if k < |xs| {
        assert cols[k] == xs[k];
      } else {
        assert cols[k] == ys[k - |xs|];
      }
    }
    forall i, j | 0 <= i < j < |cols| ensures cols[i].name != cols[j].name {
      if j < |xs| {
        assert cols[i] == xs[i] && cols[j] == xs[j];
        NamesDiffer(xs, i, j);
      } else if i >= |xs| {
        assert cols[i] == ys[i - |xs|] && cols[j] == ys[j - |xs|];
        NamesDiffer(ys, i - |xs|, j - |xs|);
      } else {
        assert cols[i] == xs[i] && cols[j] == ys[j - |xs|];
      }
    }
  }

  /** The join, when it goes through: one row per link; every profile column read through the
      links, in its place; then the OASIS id and the preferred name of the matched identity,
      missing for an unmatched row. */
  lemma LeftJoinColumns(f: Frame, ids: seq<Identity>)
    requires Valid(f) && LeftJoin(f, ids).Ok?
    ensures var r := LeftJoin(f, ids).value;
      var links := JoinLinks(Get(f, BATCH_ID).value, ids);
      && r.height == |links|
      && Names(r.columns) == Names(f.columns) + [OASIS_ID, PREFERRED_NAME]
      && (forall k :: 0 <= k < |f.columns| ==> Get(r, f.columns[k].name) == Some(Pick(f.columns[k].cells, links)))
      && Get(r, OASIS_ID) == Some(Looked(ids, links, OasisId))
      && Get(r, PREFERRED_NAME) == Some(Looked(ids, links, PreferredName))
  {
    var keys := Get(f, BATCH_ID).value;
    var links := JoinLinks(keys, ids);
    var picked := PickAll(f.columns, links, f.height);
    var extra := IdentityColumns(ids, links);
    var r := LeftJoin(f, ids).value;
    assert r == Frame(|links|, picked + extra);
    NamesAppend(picked, extra);
    forall k | 0 <= k < |f.columns| ensures Get(r, f.columns[k].name) == Some(Pick(f.columns[k].cells, links)) {
      JoinedGet(r, picked, extra, k);
    }
    JoinedGet(r, picked, extra, |picked|);
    JoinedGet(r, picked, extra, |picked| + 1);
  }

  /** Each column of the joined frame is found under its name. */
  lemma JoinedGet(r: Frame, picked: seq<Column>, extra: seq<Column>, k: nat)
    requires Valid(r) && r.columns == picked + extra && k < |r.columns|
    ensures k < |picked| ==> Get(r, picked[k].name) == Some(picked[k].cells)
    ensures k >= |picked| ==> Get(r, extra[k - |picked|].name) == Some(extra[k - |picked|].cells)
  {
    GetMember(r, r.columns[k]);
  }

  lemma NamesAppend(xs: seq<Column>, ys: seq<Column>)
    ensures Names(xs + ys) == Names(xs) + Names(ys)
  {
  }

  /** With unique batch ids, row `i` of the join is profile row `i` with the identity of its batch
      id, if there is one. */
  lemma UniqueLinkAt(keys: seq<Cell>, ids: seq<Identity>, i: nat)
    requires UniqueBatchIds(ids) && i < |keys|
    ensures |JoinLinks(keys, ids)| == |keys| && JoinLinks(keys, ids)[i].left == i
    ensures forall j :: 0 <= j < |ids| && ids[j].batchId == keys[i] ==> JoinLinks(keys, ids)[i].right == Some(j)
    ensures (forall j :: 0 <= j < |ids| ==> ids[j].batchId != keys[i]) ==> JoinLinks(keys, ids)[i].right == None
  {
    JoinLinksUnique(keys, ids);
    JoinLinksSound(keys, ids);
    var link := JoinLinks(keys, ids)[i];
    assert SoundLink(keys, ids, link);
    forall j | 0 <= j < |ids| && ids[j].batchId == keys[i] ensures link.right == Some(j) {
      SameBatchId(ids, j, link.right.value);
    }
  }


  /** With unique batch ids in the identity table the join keeps every profile row in its place. */
  lemma LeftJoinKeepsRows(f: Frame, ids: seq<Identity>)
    requires Valid(f) && LeftJoin(f, ids).Ok? && UniqueBatchIds(ids)
    ensures LeftJoin(f, ids).value.height == f.height
    ensures forall k :: 0 <= k < |f.columns| ==> Get(LeftJoin(f, ids).value, f.columns[k].name) == Some(f.columns[k].cells)
  {
    var keys := Get(f, BATCH_ID).value;
    var links := JoinLinks(keys, ids);
    LeftJoinColumns(f, ids);
    JoinLinksUnique(keys, ids);
    forall k | 0 <= k < |f.columns| ensures Pick(f.columns[k].cells, links) == f.columns[k].cells {
      assert f.columns[k] in f.columns;
    }
  }

  /** With distinct batch ids, every column of the profiles reads after the join as before it. */
  lemma LeftJoinGet(f: Frame, ids: seq<Identity>, c: Column)
    requires Valid(f) && LeftJoin(f, ids).Ok? && UniqueBatchIds(ids) && c in f.columns
    ensures Get(LeftJoin(f, ids).value, c.name) == Some(c.cells)
  {
    LeftJoinKeepsRows(f, ids);
    var k :| 0 <= k < |f.columns| && f.columns[k] == c;
  }

  /** The join adds no column but the two identity columns. */
  lemma LeftJoinHas(f: Frame, ids: seq<Identity>, name: string)
    requires Valid(f) && LeftJoin(f, ids).Ok? && HasColumn(LeftJoin(f, ids).value, name)
    requires name != OASIS_ID && name != PREFERRED_NAME
    ensures HasColumn(f, name)
  {
    LeftJoinColumns(f, ids);
    NamesAreColumns(f, name);
    NamesAreColumns(LeftJoin(f, ids).value, name);
  }

  /** With unique batch ids in the identity table, each row whose batch id an identity has gets
      that identity's OASIS id and preferred name. */
  lemma LeftJoinMatched(f: Frame, ids: seq<Identity>, i: nat, j: nat)
    requires Valid(f) && LeftJoin(f, ids).Ok? && UniqueBatchIds(ids)
    requires i < f.height && j < |ids| && ids[j].batchId == Get(f, BATCH_ID).value[i]
    ensures var r := LeftJoin(f, ids).value;
      && i < r.height
      && Get(r, OASIS_ID).value[i] == ids[j].oasisId
      && Get(r, PREFERRED_NAME).value[i] == ids[j].preferredName
  {
    LeftJoinColumns(f, ids);
    UniqueLinkAt(Get(f, BATCH_ID).value, ids, i);
  }

  /** With unique batch ids in the identity table, a row whose batch id no identity has gets
      missing cells. */
  lemma LeftJoinUnmatched(f: Frame, ids: seq<Identity>, i: nat)
    requires Valid(f) && LeftJoin(f, ids).Ok? && UniqueBatchIds(ids) && i < f.height
    requires forall j :: 0 <= j < |ids| ==> ids[j].batchId != Get(f, BATCH_ID).value[i]
    ensures var r := LeftJoin(f, ids).value;
      && i < r.height
      && Get(r, OASIS_ID).value[i] == None
      && Get(r, PREFERRED_NAME).value[i] == None
  {
    LeftJoinColumns(f, ids);
    UniqueLinkAt(Get(f, BATCH_ID).value, ids, i);
  }

  // ---------------------------------------------------------------------------------------------
  // Rows of the join, whatever the identity table

  /** The join lists no link twice. */
  lemma JoinLinksDistinct(keys: seq<Cell>, ids: seq<Identity>)
    ensures forall a, b :: 0 <= a < b < |JoinLinks(keys, ids)| ==> JoinLinks(keys, ids)[a] != JoinLinks(keys, ids)[b]
  {
    JoinLinksOrdered(keys, ids);
  }

  /** Row `k` of the join holds, in every profile column, the cell of the profile row its link
      names. */
  lemma LeftJoinRow(f: Frame, ids: seq<Identity>, c: Column, k: nat)
    requires Valid(f) && LeftJoin(f, ids).Ok? && c in f.columns
    requires k < |JoinLinks(Get(f, BATCH_ID).value, ids)|
    ensures var r := LeftJoin(f, ids).value;
      var link := JoinLinks(Get(f, BATCH_ID).value, ids)[k];
      && k < r.height && link.left < |c.cells|
      && Get(r, c.name).Some? && Get(r, c.name).value[k] == c.cells[link.left]
  {
    LeftJoinColumns(f, ids);
    var i :| 0 <= i < |f.columns| && f.columns[i] == c;
  }

  /** Row `k` of the join holds the OASIS id and the preferred name of the identity its link names,
      or missing cells when the link names none. */
  lemma LeftJoinIdentityRow(f: Frame, ids: seq<Identity>, k: nat)
    requires Valid(f) && LeftJoin(f, ids).Ok?
    requires k < |JoinLinks(Get(f, BATCH_ID).value, ids)|
    ensures var r := LeftJoin(f, ids).value;
      var link := JoinLinks(Get(f, BATCH_ID).value, ids)[k];
      && k < r.height && Get(r, OASIS_ID).Some? && Get(r, PREFERRED_NAME).Some?
      && Get(r, OASIS_ID).value[k] == (if link.right.Some? then ids[link.right.value].oasisId else None)
      && Get(r, PREFERRED_NAME).value[k] == (if link.right.Some? then ids[link.right.value].preferredName else None)
  {
    LeftJoinColumns(f, ids);
  }

  /** `l` is link `k` of `links` and no other. */
  predicate OnlyLinkAt(links: seq<Link>, k: nat, l: Link) {
    && k < |links| && links[k] == l
    && forall m :: 0 <= m < |links| && m != k ==> links[m] != l
  }

  /** Link `k` of `links` is the only one for profile row `i`. */
  predicate OnlyRowAt(links: seq<Link>, k: nat, i: nat) {
    && k < |links| && links[k].left == i
    && forall m :: 0 <= m < |links| && m != k ==> links[m].left != i
  }

  /** Each identity matching a profile row is linked to it exactly once. */
  lemma MatchLinkedOnce(keys: seq<Cell>, ids: seq<Identity>, i: nat, j: nat)
    requires i < |keys| && j < |ids| && ids[j].batchId == keys[i]
    ensures exists k: nat :: OnlyLinkAt(JoinLinks(keys, ids), k, Link(i, Some(j)))
  {
    var links := JoinLinks(keys, ids);
    LinksFromHasMatch(keys, ids, 0, i, j);
    var k :| 0 <= k < |links| && links[k] == Link(i, Some(j));
    JoinLinksDistinct(keys, ids);
    assert OnlyLinkAt(links, k, Link(i, Some(j)));
  }

  /** A profile row no identity matches has exactly one link, and it names no identity. */
  lemma UnmatchedLinkedOnce(keys: seq<Cell>, ids: seq<Identity>, i: nat)
    requires i < |keys| && forall j :: 0 <= j < |ids| ==> ids[j].batchId != keys[i]
    ensures exists k: nat :: OnlyRowAt(JoinLinks(keys, ids), k, i) && JoinLinks(keys, ids)[k].right == None
  {
    var links := JoinLinks(keys, ids);
    LinksFromHasUnmatched(keys, ids, 0, i);
    var k :| 0 <= k < |links| && links[k] == Link(i, None);
    JoinLinksDistinct(keys, ids);
    forall m | 0 <= m < |links| && m != k ensures links[m].left != i {
      assert links[m] != links[k];
      LinksFromSound(keys, ids, 0, m);
      OtherLinkLeft(keys, ids, links[m], i);
    }
    assert OnlyRowAt(links, k, i);
  }

  /** A sound link other than the link of an unmatched row `i` comes from another row. */
  lemma OtherLinkLeft(keys: seq<Cell>, ids: seq<Identity>, l: Link, i: nat)
    requires SoundLink(keys, ids, l) && l != Link(i, None) && i < |keys|
    requires forall j :: 0 <= j < |ids| ==> ids[j].batchId != keys[i]
    ensures l.left != i
  {
  }

  /** Whatever the identity table, each identity whose batch id is that of profile row `i` gives
      exactly one row of the join, which carries that identity's OASIS id and preferred name. */
  lemma LeftJoinMatchedOnce(f: Frame, ids: seq<Identity>, i: nat, j: nat)
    requires Valid(f) && LeftJoin(f, ids).Ok? && i < f.height
    requires j < |ids| && ids[j].batchId == Get(f, BATCH_ID).value[i]
    ensures var r := LeftJoin(f, ids).value;
      var links := JoinLinks(Get(f, BATCH_ID).value, ids);
      && Get(r, OASIS_ID).Some? && Get(r, PREFERRED_NAME).Some?
      && exists k: nat :: OnlyLinkAt(links, k, Link(i, Some(j))) && k < r.height
           && Get(r, OASIS_ID).value[k] == ids[j].oasisId
           && Get(r, PREFERRED_NAME).value[k] == ids[j].preferredName
  {
    var links := JoinLinks(Get(f, BATCH_ID).value, ids);
    MatchLinkedOnce(Get(f, BATCH_ID).value, ids, i, j);
    var k: nat :| OnlyLinkAt(links, k, Link(i, Some(j)));
    LeftJoinIdentityRow(f, ids, k);
  }

  /** Whatever the identity table, a profile row whose batch id no identity has gives exactly one
      row of the join, with a missing OASIS id and preferred name. */
  lemma LeftJoinUnmatchedOnce(f: Frame, ids: seq<Identity>, i: nat)
    requires Valid(f) && LeftJoin(f, ids).Ok? && i < f.height
    requires forall j :: 0 <= j < |ids| ==> ids[j].batchId != Get(f, BATCH_ID).value[i]
    ensures var r := LeftJoin(f, ids).value;
      var links := JoinLinks(Get(f, BATCH_ID).value, ids);
      && Get(r, OASIS_ID).Some? && Get(r, PREFERRED_NAME).Some?
      && exists k: nat :: OnlyRowAt(links, k, i) && links[k].right == None && k < r.height
           && Get(r, OASIS_ID).value[k] == None && Get(r, PREFERRED_NAME).value[k] == None
  {
    var links := JoinLinks(Get(f, BATCH_ID).value, ids);
    UnmatchedLinkedOnce(Get(f, BATCH_ID).value, ids, i);
    var k: nat :| OnlyRowAt(links, k, i) && links[k].right == None;
    LeftJoinIdentityRow(f, ids, k);
  }
}

=== FILE: labels.dfy ===
/** The two label columns the profile combiner writes once the identity table is joined in: the
    compound of each row (lines 54-57 of the combiner) and its treatment, the compound together
    with the media (lines 58-60). */
module Labels {
  import opened Wrappers
  import opened Text
  import opened Frames
  import opened Columns

  /** The columns lines 54-60 read, in the order they read them. */
  const LABEL_INPUTS: seq<string> := [PREFERRED_NAME, CONTROL_TYPE, OASIS_ID, BATCH_ID, MEDIA]

  /** The first of `names` that `f` lacks: the KeyError of the first read that fails. */
  function FirstAbsent(f: Frame, names: seq<string>): (r: Option<string>)
    ensures r.None? <==> forall k :: 0 <= k < |names| ==> HasColumn(f, names[k])
    ensures r.Some? ==> exists k :: 0 <= k < |names| && names[k] == r.value && !HasColumn(f, r.value) &&
                                    forall j :: 0 <= j < k ==> HasColumn(f, names[j])
  {
    if |names| == 0 then None
    else if !HasColumn(f, names[0]) then Some(names[0])
    else
      var r := FirstAbsent(f, names[1..]);
      assert r.Some? ==> exists k :: 0 < k < |names| && names[k] == r.value && !HasColumn(f, r.value) &&
                                     forall j :: 0 <= j < k ==> HasColumn(f, names[j]) by {
        if r.Some? {
          var k :| 0 <= k < |names[1..]| && names[1..][k] == r.value && !HasColumn(f, r.value) &&
                   forall j :: 0 <= j < k ==> HasColumn(f, names[1..][j]);
          assert forall j :: 0 <= j < k + 1 ==> HasColumn(f, names[j]) by {
            forall j | 0 < j < k + 1 ensures HasColumn(f, names[j]) {
              assert names[j] == names[1..][j - 1];
            }
          }
        }
      }
      r
  }

  /** The columns lines 54-57 read. */
  predicate CompoundInputs(f: Frame) {
    HasColumn(f, PREFERRED_NAME) && HasColumn(f, CONTROL_TYPE) && HasColumn(f, OASIS_ID) && HasColumn(f, BATCH_ID)
  }

  predicate InputsPresent(f: Frame) {
    CompoundInputs(f) && HasColumn(f, MEDIA)
  }

  /** The reads of lines 54-60 fail on the first of their columns that is missing. */
  lemma LabelInputs(f: Frame)
    ensures FirstAbsent(f, LABEL_INPUTS) ==
      if !HasColumn(f, PREFERRED_NAME) then Some(PREFERRED_NAME)
      else if !HasColumn(f, CONTROL_TYPE) then Some(CONTROL_TYPE)
      else if !HasColumn(f, OASIS_ID) then Some(OASIS_ID)
      else if !HasColumn(f, BATCH_ID) then Some(BATCH_ID)
      else if !HasColumn(f, MEDIA) then Some(MEDIA)
      else None
    ensures FirstAbsent(f, LABEL_INPUTS).None? <==> InputsPresent(f)
  {
    assert LABEL_INPUTS == [PREFERRED_NAME] + ([CONTROL_TYPE] + ([OASIS_ID] + ([BATCH_ID] + ([MEDIA] + []))));
    FirstAbsentCons(f, MEDIA, []);
    FirstAbsentCons(f, BATCH_ID, [MEDIA]);
    FirstAbsentCons(f, OASIS_ID, [BATCH_ID, MEDIA]);
    FirstAbsentCons(f, CONTROL_TYPE, [OASIS_ID, BATCH_ID, MEDIA]);
    FirstAbsentCons(f, PREFERRED_NAME, [CONTROL_TYPE, OASIS_ID, BATCH_ID, MEDIA]);
  }

  lemma FirstAbsentCons(f: Frame, n: string, rest: seq<string>)
    ensures FirstAbsent(f, [n] + rest) == if !HasColumn(f, n) then Some(n) else FirstAbsent(f, rest)
  {
    assert ([n] + rest)[1..] == rest;
  }

  // ---------------------------------------------------------------------------------------------
  // One row

  /** The compound label of one row: "NegCon" for a negative control, otherwise the first
      present of the preferred name, the OASIS id and the batch id. */
  function CompoundOf(name: Cell, control: Cell, oasis: Cell, batchId: Cell): (r: Cell)
    ensures control == TextCell(NEGCON) ==> r == TextCell(NEGCON_LABEL)
    ensures r.None? <==> control != TextCell(NEGCON) && name.None? && oasis.None? && batchId.None?
  {
    if control == TextCell(NEGCON) then TextCell(NEGCON_LABEL)
    else if name.Some? then name
    else if oasis.Some? then oasis
    else batchId
  }

  /** Everything but a negative control is labelled with one of its own identifiers, taken in
      order of preference: a present identifier is only passed over for an earlier present one. */
  lemma CompoundPreference(name: Cell, control: Cell, oasis: Cell, batchId: Cell)
    requires control != TextCell(NEGCON)
    ensures var r := CompoundOf(name, control, oasis, batchId);
      && (name.Some? ==> r == name)
      && (name.None? && oasis.Some? ==> r == oasis)
      && (name.None? && oasis.None? ==> r == batchId)
  {
  }

  /** `compound.astype(str) + "_" + media.astype(str)` for one row. */
  function TreatmentLabel(compound: Cell, media: Cell): (r: string)
    ensures '_' !in Render(media) ==> SplitLast(r) == (Render(compound), Render(media))
  {
    var c, m := Render(compound), Render(media);
    var r := c + "_" + m;
    assert '_' !in m ==> LastIndexOf(r, '_') == |c| by {
      if '_' !in m {
        forall k | |c| < k < |r| ensures r[k] != '_' {
          assert r[k] == m[k - |c| - 1];
        }
        LastIndexOfAt(r, '_', |c|);
      }
    }
    assert r[..|c|] == c && r[|c| + 1..] == m;
    r
  }

  /** `s.rsplit("_", 1)`: the text before and after the last underscore. */
  function SplitLast(s: string): (string, string) {
    var i := LastIndexOf(s, '_');
    if i < 0 then (s, "") else (s[..i], s[i + 1..])
  }

  /** The media the combiner writes, "DMSO" and "DEX", have no underscore, so a treatment label
      splits back into its compound and media at its last underscore. */
  lemma TreatmentSplits(compound: Cell, media: string)
    requires media == "DMSO" || media == "DEX"
    ensures SplitLast(TreatmentLabel(compound, TextCell(media))) == (Render(compound), media)
  {
    assert '_' !in Render(TextCell(media));
  }

  // ---------------------------------------------------------------------------------------------
  // Whole columns

  /** `df.loc[control == "negcon", col] = "NegCon"` */
  function MarkNegCon(cells: seq<Cell>, control: seq<Cell>): (r: seq<Cell>)
    requires |cells| == |control|
    ensures |r| == |cells|
  {
    seq(|cells|, i requires 0 <= i < |cells| => if control[i] == TextCell(NEGCON) then TextCell(NEGCON_LABEL) else cells[i])
  }

  /** `cells.fillna(fill)`: a missing cell takes the cell of `fill` in its row. */
  function FillNa(cells: seq<Cell>, fill: seq<Cell>): (r: seq<Cell>)
    requires |cells| == |fill|
    ensures |r| == |cells|
  {
    seq(|cells|, i requires 0 <= i < |cells| => if cells[i].Some? then cells[i] else fill[i])
  }

  /** The compound of every row of `f`. */
  function CompoundColumn(f: Frame): (cells: seq<Cell>)
    requires Valid(f) && CompoundInputs(f)
    ensures |cells| == f.height
  {
    var names, control := Get(f, PREFERRED_NAME).value, Get(f, CONTROL_TYPE).value;
    var oasis, ids := Get(f, OASIS_ID).value, Get(f, BATCH_ID).value;
    seq(f.height, i requires 0 <= i < f.height => CompoundOf(names[i], control[i], oasis[i], ids[i]))
  }

  /** The treatment of every row of `f`. */
  function TreatmentColumn(f: Frame): (cells: seq<Cell>)
    requires Valid(f) && InputsPresent(f)
    ensures |cells| == f.height
  {
    var compounds, media := CompoundColumn(f), Get(f, MEDIA).value;
    seq(f.height, i requires 0 <= i < f.height => TextCell(TreatmentLabel(compounds[i], media[i])))
  }

  /** Row `i` of the two label columns. */
  lemma LabelsAt(f: Frame, i: nat)
    requires Valid(f) && InputsPresent(f) && i < f.height
    ensures var compound := CompoundOf(Get(f, PREFERRED_NAME).value[i], Get(f, CONTROL_TYPE).value[i],
                                       Get(f, OASIS_ID).value[i], Get(f, BATCH_ID).value[i]);
      && CompoundColumn(f)[i] == compound
      && TreatmentColumn(f)[i] == TextCell(TreatmentLabel(compound, Get(f, MEDIA).value[i]))
  {
  }

  /** What lines 54-60 leave: the compound column assigned to the frame, then the treatment
      column; or the KeyError of the first column they read that is missing. */
  function Labelled(f: Frame): (r: Result<Frame, Error>)
    requires Valid(f)
    ensures r.Err? <==> FirstAbsent(f, LABEL_INPUTS).Some?
    ensures r.Err? ==> r.error == MissingColumn(FirstAbsent(f, LABEL_INPUTS).value)
    ensures r.Ok? <==> InputsPresent(f)
    ensures r.Ok? ==> Valid(r.value) && r.value.height == f.height
  {
    LabelInputs(f);
    match FirstAbsent(f, LABEL_INPUTS)
    case Some(n) => Err(MissingColumn(n))
    case None => Ok(Assign(Assign(f, COMPOUND, CompoundColumn(f)), TREATMENT, TreatmentColumn(f)))
  }

  /** The labelled frame has the two label columns and every other column as it was; a label
      column the frame already had keeps its place, a new one is added at the end. */
  lemma LabelledColumns(f: Frame)
    requires Valid(f) && InputsPresent(f)
    ensures Labelled(f).Ok?
    ensures var r := Labelled(f).value;
      && Get(r, COMPOUND) == Some(CompoundColumn(f))
      && Get(r, TREATMENT) == Some(TreatmentColumn(f))
      && (forall c :: c in f.columns && c.name != COMPOUND && c.name != TREATMENT ==> c in r.columns)
      && (forall c :: c in r.columns && c.name != COMPOUND && c.name != TREATMENT ==> c in f.columns)
      && Names(r.columns) == Names(f.columns) + (if HasColumn(f, COMPOUND) then [] else [COMPOUND])
                                              + (if HasColumn(f, TREATMENT) then [] else [TREATMENT])
  {
    LabelInputs(f);
    assert Labelled(f) == Ok(Assign(Assign(f, COMPOUND, CompoundColumn(f)), TREATMENT, TreatmentColumn(f)));
    AssignPair(f, COMPOUND, CompoundColumn(f), TREATMENT, TreatmentColumn(f));
  }

  /** The four updates of the compound column compute, row by row, the compound label. */
  lemma CompoundSteps(f: Frame, control: seq<Cell>, oasis: seq<Cell>, ids: seq<Cell>)
    requires Valid(f) && CompoundInputs(f)
    requires Get(f, CONTROL_TYPE) == Some(control) && Get(f, OASIS_ID) == Some(oasis) && Get(f, BATCH_ID) == Some(ids)
    ensures FillNa(FillNa(MarkNegCon(Get(f, PREFERRED_NAME).value, control), oasis), ids) == CompoundColumn(f)
  {
  }

  /** Lines 54-57: the compound column is set to the preferred names, overwritten with "NegCon"
      on negative controls, then filled from the OASIS ids and then from the batch ids. */
  method SetCompound(df: Frame) returns (r: Result<Frame, Error>)
    requires Valid(df)
    ensures r.Err? <==> !CompoundInputs(df)
    ensures r.Err? ==> r.error.MissingColumn? && FirstAbsent(df, LABEL_INPUTS) == Some(r.error.name)
    ensures r.Ok? ==> r.value == Assign(df, COMPOUND, CompoundColumn(df))
  {
    LabelInputs(df);
    var names := Get(df, PREFERRED_NAME);
    if names.None? {
      return Err(MissingColumn(PREFERRED_NAME));
    }
    var f := Assign(df, COMPOUND, names.value);
    var control := Get(f, CONTROL_TYPE);
    AssignOther(df, COMPOUND, names.value, CONTROL_TYPE);
    if control.None? {
      return Err(MissingColumn(CONTROL_TYPE));
    }
    var marked := MarkNegCon(Get(f, COMPOUND).value, control.value);
    AssignTwice(df, COMPOUND, names.value, marked);
    f := Assign(f, COMPOUND, marked);
    var oasis := Get(f, OASIS_ID);
    AssignOther(df, COMPOUND, marked, OASIS_ID);
    if oasis.None? {
      return Err(MissingColumn(OASIS_ID));
    }
    var filled := FillNa(Get(f, COMPOUND).value, oasis.value);
    AssignTwice(df, COMPOUND, marked, filled);
    f := Assign(f, COMPOUND, filled);
    var ids := Get(f, BATCH_ID);
    AssignOther(df, COMPOUND, filled, BATCH_ID);
    if ids.None? {
      return Err(MissingColumn(BATCH_ID));
    }
    var labels := FillNa(Get(f, COMPOUND).value, ids.value);
    AssignTwice(df, COMPOUND, filled, labels);
    CompoundSteps(df, control.value, oasis.value, ids.value);
    r := Ok(Assign(f, COMPOUND, labels));
  }

  /** Lines 54-60: the compound column, then the treatment column built from it and the media. */
  method LabelCompounds(df: Frame) returns (r: Result<Frame, Error>)
    requires Valid(df)
    ensures r == Labelled(df)
  {
    LabelInputs(df);
    var compound := SetCompound(df);
    if compound.Err? {
      return Err(compound.error);
    }
    var f := compound.value;
    var media := Get(f, MEDIA);
    AssignOther(df, COMPOUND, CompoundColumn(df), MEDIA);
    if media.None? {
      return Err(MissingColumn(MEDIA));
    }
    var labels := Get(f, COMPOUND).value;
    var treatments := seq(df.height, i requires 0 <= i < df.height =>
                            TextCell(TreatmentLabel(labels[i], media.value[i])));
    assert treatments == TreatmentColumn(df);
    r := Ok(Assign(f, TREATMENT, treatments));
  }
}

=== FILE: plates.dfy ===
/** Plate naming and media assignment in the profile combiner: a plate file's name gives the plate
    id, the id gives the plate number, and within a batch the smallest plate number marks the DMSO
    plate and the largest the DEX plate. */
module Plates {
  import opened Wrappers
  import opened Text
  import opened Frames

  const DMSO: string := "DMSO"
  const DEX: string := "DEX"

  /** `Path(name).stem`: the name without its last suffix. A dot that starts or ends the name does
      not begin a suffix; Python releases differ on the final dot, but not on the "*.csv.gz" names
      the combiner reads. */
  function Stem(name: string): string {
    var i := LastIndexOf(name, '.');
    if 0 < i < |name| - 1 then name[..i] else name
  }

  /** The files the combiner reads match "*.csv.gz", so their stem keeps the ".csv". */
  lemma StemOfProfileFile(name: string)
    requires EndsWith(name, ".csv.gz")
    ensures Stem(name) == name[..|name| - 3]
  {
    var i := LastIndexOf(name, '.');
    assert name[|name| - 7..] == ".csv.gz";
    assert name[|name| - 3] == '.' && name[|name| - 2] == 'g' && name[|name| - 1] == 'z';
    assert i == |name| - 3;
  }

  /** `f.stem.split("_")[0]`: the plate id is the stem up to its first underscore. */
  function PlateId(fileName: string): (id: string)
    ensures '_' !in id
    ensures StartsWith(Stem(fileName), id)
    ensures |id| < |Stem(fileName)| ==> Stem(fileName)[|id|] == '_'
  {
    BeforeFirst(Stem(fileName), '_')
  }

  /** A file named "<id>_<rest>.csv.gz" belongs to plate <id>. */
  lemma PlateIdOfFile(id: string, rest: string)
    requires '_' !in id
    ensures PlateId(id + "_" + rest + ".csv.gz") == id
  {
    var name := id + "_" + rest + ".csv.gz";
    assert EndsWith(name, ".csv.gz") by { assert name[|name| - 7..] == ".csv.gz"; }
    StemOfProfileFile(name);
    var stem := name[..|name| - 3];
    assert stem == id + "_" + rest + ".csv";
    assert stem[..|id|] == id && stem[|id|] == '_';
    BeforeFirstUnique(stem, '_', id);
  }

  /** `int(pid.replace("BR", ""))`, for plain decimal numerals: `None` is the ValueError. */
  function PlateNumber(id: string): Option<nat> {
    ParseDecimal(DropBR(id))
  }

  /** The usual plate barcode, "BR" then a zero-padded number, gives that number. */
  lemma PlateNumberOfBarcode(zeros: nat, n: nat)
    ensures PlateNumber("BR" + Zeros(zeros) + ShowDecimal(n)) == Some(n)
  {
    var digits := Zeros(zeros) + ShowDecimal(n);
    assert AllDigits(digits);
    NumeralHasNoB(digits);
    DropBRWithoutB(digits);
    var id := "BR" + Zeros(zeros) + ShowDecimal(n);
    assert id == "BR" + digits;
    assert id[0] == 'B' && id[1] == 'R' && id[2..] == digits;
    assert DropBR(id) == digits;
    ParseShowDecimal(n);
    ZerosValue(zeros, ShowDecimal(n));
    assert DecimalValue(digits) == n;
  }

  lemma NumeralHasNoB(s: string)
    requires AllDigits(s)
    ensures 'B' !in s
  {
    assert forall k :: 0 <= k < |s| ==> s[k] != 'B';
  }

  /** A character other than B and R still occurs after the deletion of "BR". */
  lemma {:induction false} DropBRKeeps(s: string, i: nat)
    requires i < |s| && s[i] != 'B' && s[i] != 'R'
    ensures s[i] in DropBR(s)
    decreases |s|
  {
    if |s| >= 2 && s[0] == 'B' && s[1] == 'R' {
      DropBRKeeps(s[2..], i - 2);
    } else if i > 0 {
      DropBRKeeps(s[1..], i - 1);
    }
  }

  /** The characters of `s` other than B and R, in order. */
  function Others(s: string): (r: string)
    ensures forall c :: c in r <==> c in s && c != 'B' && c != 'R'
    decreases |s|
  {
    if |s| == 0 then []
    else
      var r := (if s[0] == 'B' || s[0] == 'R' then [] else [s[0]]) + Others(s[1..]);
      assert forall c :: c in s <==> c == s[0] || c in s[1..] by {
        assert s == [s[0]] + s[1..];
      }
      r
  }

  /** Deleting "BR" deletes only B's and R's: every other character stays, in order and as often
      as it occurs. */
  lemma {:induction false} DropBRKeepsOthers(s: string)
    ensures Others(DropBR(s)) == Others(s)
    decreases |s|
  {
    if |s| >= 2 && s[0] == 'B' && s[1] == 'R' {
      assert s[1..][1..] == s[2..];
      DropBRKeepsOthers(s[2..]);
    } else if |s| > 0 {
      var d := [s[0]] + DropBR(s[1..]);
      assert d[0] == s[0] && d[1..] == DropBR(s[1..]);
      DropBRKeepsOthers(s[1..]);
    }
  }

  /** A plate file whose name has no underscore keeps ".csv" in its plate id, which then does not
      parse as a number. */
  lemma FileWithoutUnderscoreFails(id: string)
    requires '_' !in id
    ensures PlateNumber(PlateId(id + ".csv.gz")) == None
  {
    var name := id + ".csv.gz";
    assert EndsWith(name, ".csv.gz") by { assert name[|name| - 7..] == ".csv.gz"; }
    StemOfProfileFile(name);
    var stem := name[..|name| - 3];
    assert stem == id + ".csv";
    assert '_' !in stem;
    BeforeFirstUnique(stem, '_', stem);
    assert stem[|id|] == '.';
    DropBRKeeps(stem, |id|);
    var k :| 0 <= k < |DropBR(stem)| && DropBR(stem)[k] == '.';
    assert !IsDigit(DropBR(stem)[k]);
  }

  /** `[int(pid.replace("BR", "")) for pid in plate_ids]`: every plate number, or the error of the
      first id that does not parse. */
  function PlateNumbers(ids: seq<string>): (r: Result<seq<nat>, Error>)
    ensures r.Ok? <==> forall k :: 0 <= k < |ids| ==> PlateNumber(ids[k]).Some?
    ensures r.Ok? ==> |r.value| == |ids| && forall k :: 0 <= k < |ids| ==> PlateNumber(ids[k]) == Some(r.value[k])
    ensures r.Err? ==> exists k :: && 0 <= k < |ids| && PlateNumber(ids[k]).None? && r.error == BadPlateId(ids[k])
                                   && forall m :: 0 <= m < k ==> PlateNumber(ids[m]).Some?
  {
    if |ids| == 0 then Ok([])
    else match PlateNumber(ids[0])
      case None => Err(BadPlateId(ids[0]))
      case Some(n) =>
        match PlateNumbers(ids[1..])
        case Err(e) => Err(e)
        case Ok(ns) => Ok([n] + ns)
  }

  /** `min(nums)` of a non-empty list. */
  function MinOf(nums: seq<nat>): (m: nat)
    requires |nums| > 0
    ensures m in nums && forall x :: x in nums ==> m <= x
  {
    if |nums| == 1 then nums[0]
    else
      assert nums == [nums[0]] + nums[1..];
      var m := MinOf(nums[1..]);
      if nums[0] <= m then nums[0] else m
  }

  /** `max(nums)` of a non-empty list. */
  function MaxOf(nums: seq<nat>): (m: nat)
    requires |nums| > 0
    ensures m in nums && forall x :: x in nums ==> x <= m
  {
    if |nums| == 1 then nums[0]
    else
      assert nums == [nums[0]] + nums[1..];
      var m := MaxOf(nums[1..]);
      if nums[0] >= m then nums[0] else m
  }

  /** `{min(nums): "DMSO", max(nums): "DEX"}`; `None` is the ValueError of `min([])`. When the two
      keys coincide the later entry wins. */
  function MediaMap(nums: seq<nat>): (r: Option<map<nat, string>>)
    ensures r.Some? <==> |nums| > 0
  {
    if |nums| == 0 then None
    else Some(map[MinOf(nums) := DMSO][MaxOf(nums) := DEX])
  }

  /** `treatments[num]`: `None` is the KeyError. */
  function MediaOf(media: map<nat, string>, n: nat): Option<string> {
    if n in media then Some(media[n]) else None
  }

  /** The media a plate gets depends on where its number stands among the batch's numbers: the
      largest is DEX (even when it is the only one), the smallest of two or more distinct numbers
      is DMSO, and any number strictly between them has no media. */
  lemma {:induction false} MediaByRank(nums: seq<nat>, n: nat)
    requires n in nums
    ensures MediaMap(nums).Some?
    ensures (forall x :: x in nums ==> x <= n) ==> MediaOf(MediaMap(nums).value, n) == Some(DEX)
    ensures (forall x :: x in nums ==> n <= x) && (exists x :: x in nums && n < x) ==>
              MediaOf(MediaMap(nums).value, n) == Some(DMSO)
    ensures (exists x :: x in nums && x < n) && (exists x :: x in nums && n < x) ==>
              MediaOf(MediaMap(nums).value, n) == None
  {
    var lo, hi := MinOf(nums), MaxOf(nums);
    var media := MediaMap(nums).value;
    assert media == map[lo := DMSO][hi := DEX];
    if forall x :: x in nums ==> x <= n {
      assert n == hi;
    }
    if (forall x :: x in nums ==> n <= x) && (exists x :: x in nums && n < x) {
      assert n == lo && lo < hi;
    }
    if (exists x :: x in nums && x < n) && (exists x :: x in nums && n < x) {
      assert lo < n < hi;
    }
  }

  /** The media assignment depends on the set of plate numbers only, not on the order of the
      plate files. */
  lemma MediaMapOrderFree(a: seq<nat>, b: seq<nat>)
    requires forall x :: x in a <==> x in b
    ensures MediaMap(a) == MediaMap(b)
  {
    if |a| > 0 {
      assert a[0] in b;
      assert MinOf(a) == MinOf(b) by {
        assert MinOf(a) <= MinOf(b) && MinOf(b) <= MinOf(a);
      }
      assert MaxOf(a) == MaxOf(b) by {
        assert MaxOf(a) <= MaxOf(b) && MaxOf(b) <= MaxOf(a);
      }
    }
  }

  /** The intended case, two plates: the lower number is DMSO and the higher DEX, whichever file
      is listed first. */
  lemma TwoPlates(lo: nat, hi: nat)
    requires lo < hi
    ensures MediaOf(MediaMap([lo, hi]).value, lo) == Some(DMSO)
    ensures MediaOf(MediaMap([lo, hi]).value, hi) == Some(DEX)
    ensures MediaMap([hi, lo]) == MediaMap([lo, hi])
  {
    MediaByRank([lo, hi], lo);
    MediaByRank([lo, hi], hi);
    MediaMapOrderFree([hi, lo], [lo, hi]);
  }

  /** A batch with a single plate: min and max coincide, and the later dict entry makes it DEX. */
  lemma SinglePlate(n: nat)
    ensures MediaOf(MediaMap([n]).value, n) == Some(DEX)
  {
    MediaByRank([n], n);
  }
}

=== FILE: profiles.dfy ===
/** The first half of the profile combiner (lines 12-36): every plate table of every batch
    directory is tagged with its batch, plate and media, and the tagged tables are stacked. */
module Profiles {
  import opened Wrappers
  import opened Text
  import opened Frames
  import opened Plates
  import opened Columns

  /** A "*.csv.gz" file of a batch directory and the table read from it. */
  datatype PlateFile = PlateFile(name: string, profile: Frame)

  /** An entry of the profiles directory; only directories are batches. Their plate files come in
      sorted order. */
  datatype BatchEntry = BatchEntry(name: string, isDir: bool, plates: seq<PlateFile>)

  /** Every table read from a CSV is rectangular with distinct column names. */
  predicate ValidBatch(e: BatchEntry) {
    forall k :: 0 <= k < |e.plates| ==> Valid(e.plates[k].profile)
  }

  predicate ValidListing(entries: seq<BatchEntry>) {
    forall i :: 0 <= i < |entries| ==> ValidBatch(entries[i])
  }

  // ---------------------------------------------------------------------------------------------
  // Tagging the plates of a batch

  /** The batch, plate and media written onto one plate's rows. */
  datatype Tag = Tag(batch: string, plate: string, media: string)

  /** The three columns a plate's rows carry after tagging. */
  predicate Tagged(f: Frame, t: Tag) {
    && Get(f, BATCH) == Some(Constant(f.height, t.batch))
    && Get(f, PLATE) == Some(Constant(f.height, t.plate))
    && Get(f, MEDIA) == Some(Constant(f.height, t.media))
  }

  /** The names the tagging writes. */
  predicate IsTagName(n: string) {
    n == BATCH || n == PLATE || n == MEDIA
  }

  /** The three keyword columns of the tagging `assign`. */
  function TagColumns(h: nat, t: Tag): (cols: seq<Column>)
    ensures Sized(cols, h) && Names(cols) == [BATCH, PLATE, MEDIA]
  {
    [Column(BATCH, Constant(h, t.batch)), Column(PLATE, Constant(h, t.plate)), Column(MEDIA, Constant(h, t.media))]
  }

  /** The three tag names are distinct. */
  lemma TagNamesDiffer()
    ensures BATCH != PLATE && BATCH != MEDIA && PLATE != MEDIA
  {
    assert BATCH[9] == 'B' && PLATE[9] == 'P' && MEDIA[9] == 'M';
  }

  /** `df.assign(Metadata_Batch=batch_name, Metadata_Plate=pid, Metadata_Media=treatments[num])`. */
  function TagPlate(profile: Frame, t: Tag): (r: Frame)
    requires Valid(profile)
    ensures Valid(r) && r.height == profile.height
    ensures Tagged(r, t)
  {
    var cols := TagColumns(profile.height, t);
    assert cols[0].name == BATCH && cols[1].name == PLATE && cols[2].name == MEDIA;
    TagNamesDiffer();
    AssignAllGet(profile, cols, 0);
    AssignAllGet(profile, cols, 1);
    AssignAllGet(profile, cols, 2);
    AssignAll(profile, cols)
  }

  /** Tagging touches no other column. */
  lemma TagPlateKeeps(profile: Frame, t: Tag)
    requires Valid(profile)
    ensures forall c :: c in profile.columns && !IsTagName(c.name) ==> c in TagPlate(profile, t).columns
    ensures forall c :: c in TagPlate(profile, t).columns && !IsTagName(c.name) ==> c in profile.columns
  {
    AssignAllKeeps(profile, TagColumns(profile.height, t));
  }

  /** The plate ids of a batch's files, in listing order. */
  function PlateIds(e: BatchEntry): (ids: seq<string>)
    ensures |ids| == |e.plates| && forall k :: 0 <= k < |e.plates| ==> ids[k] == PlateId(e.plates[k].name)
  {
    seq(|e.plates|, k requires 0 <= k < |e.plates| => PlateId(e.plates[k].name))
  }

  /** The inner loop over the first `j` plates of a batch: each plate gets the batch name, its
      plate id and the media its number maps to; a number with no media stops the script. */
  function TagPlates(e: BatchEntry, ids: seq<string>, nums: seq<nat>, media: map<nat, string>, j: nat)
    : (r: Result<seq<Tag>, Error>)
    requires |ids| == |e.plates| && |nums| == |e.plates| && j <= |e.plates|
    ensures r.Ok? ==> |r.value| == j
  {
    if j == 0 then Ok([])
    else match TagPlates(e, ids, nums, media, j - 1)
      case Err(err) => Err(err)
      case Ok(done) =>
        match MediaOf(media, nums[j - 1])
        case None => Err(NoMedia(ids[j - 1]))
        case Some(m) => Ok(done + [Tag(e.name, ids[j - 1], m)])
  }

  /** The first `j` plates are tagged exactly when each of their numbers has a media, and then the
      k-th plate gets its batch's name, its own id and its number's media. */
  lemma {:induction false} TagPlatesResult(e: BatchEntry, ids: seq<string>, nums: seq<nat>, media: map<nat, string>, j: nat)
    requires |ids| == |e.plates| && |nums| == |e.plates| && j <= |e.plates|
    ensures TagPlates(e, ids, nums, media, j).Ok? <==> forall k :: 0 <= k < j ==> nums[k] in media
    ensures TagPlates(e, ids, nums, media, j).Ok? ==>
              forall k :: 0 <= k < j ==> TagPlates(e, ids, nums, media, j).value[k] == Tag(e.name, ids[k], media[nums[k]])
  {
    if j > 0 {
      TagPlatesResult(e, ids, nums, media, j - 1);
    }
  }

  /** Once a plate has failed, the rest of the batch does not change the outcome. */
  lemma {:induction false} TagPlatesErrorStays(e: BatchEntry, ids: seq<string>, nums: seq<nat>, media: map<nat, string>, j: nat, n: nat)
    requires |ids| == |e.plates| && |nums| == |e.plates| && j <= n <= |e.plates|
    requires TagPlates(e, ids, nums, media, j).Err?
    ensures TagPlates(e, ids, nums, media, n) == TagPlates(e, ids, nums, media, j)
    decreases n
  {
    if n > j {
      TagPlatesErrorStays(e, ids, nums, media, j, n - 1);
    }
  }

  /** One entry of the outer loop: a non-directory adds nothing; a batch directory parses its plate
      numbers, builds the min/max media map, and tags all its plates. */
  function BatchTags(e: BatchEntry): (r: Result<seq<Tag>, Error>)
    ensures r.Ok? ==> |r.value| == |DirPlates(e)|
  {
    if !e.isDir then Ok([])
    else
      var ids := PlateIds(e);
      match PlateNumbers(ids)
      case Err(err) => Err(err)
      case Ok(nums) =>
        match MediaMap(nums)
        case None => Err(EmptyBatch(e.name))
        case Some(media) => TagPlates(e, ids, nums, media, |e.plates|)
  }

  /** The tables the loop reads from one entry: its plate tables if it is a directory. */
  function DirPlates(e: BatchEntry): (profiles: seq<Frame>)
    ensures ValidBatch(e) ==> AllValid(profiles)
  {
    if e.isDir then seq(|e.plates|, k requires 0 <= k < |e.plates| => e.plates[k].profile) else []
  }

  predicate AllNumbered(e: BatchEntry) {
    forall k :: 0 <= k < |e.plates| ==> PlateNumber(PlateId(e.plates[k].name)).Some?
  }

  /** The plate numbers of a batch whose plate ids all parse, in listing order. */
  function Numbers(e: BatchEntry): (nums: seq<nat>)
    requires AllNumbered(e)
    ensures |nums| == |e.plates|
    ensures forall k :: 0 <= k < |e.plates| ==> PlateNumber(PlateId(e.plates[k].name)) == Some(nums[k])
  {
    PlateNumbers(PlateIds(e)).value
  }

  predicate IsLargest(nums: seq<nat>, k: nat)
    requires k < |nums|
  {
    forall x :: 0 <= x < |nums| ==> nums[x] <= nums[k]
  }

  predicate IsSmallest(nums: seq<nat>, k: nat)
    requires k < |nums|
  {
    forall x :: 0 <= x < |nums| ==> nums[k] <= nums[x]
  }

  /** A batch directory with a plate id that is not a number fails on it. */
  lemma BatchBadId(e: BatchEntry)
    requires e.isDir && !AllNumbered(e)
    ensures BatchTags(e).Err? && BatchTags(e).error.BadPlateId?
  {
    var ids := PlateIds(e);
    var k :| 0 <= k < |e.plates| && PlateNumber(PlateId(e.plates[k].name)).None?;
    assert PlateNumber(ids[k]).None?;
    assert PlateNumbers(ids).Err? && PlateNumbers(ids).error.BadPlateId?;
    assert BatchTags(e) == Err(PlateNumbers(ids).error);
  }

  /** An empty batch directory fails: `min()` of no plate numbers. */
  lemma BatchEmpty(e: BatchEntry)
    requires e.isDir && |e.plates| == 0
    ensures BatchTags(e) == Err(EmptyBatch(e.name))
  {
    assert PlateNumbers(PlateIds(e)) == Ok([]);
  }

  /** A plate whose number lies strictly between two others of its batch has no media. */
  lemma BatchMiddlePlate(e: BatchEntry, k: nat, lo: nat, hi: nat)
    requires e.isDir && AllNumbered(e)
    requires k < |e.plates| && lo < |e.plates| && hi < |e.plates|
    requires Numbers(e)[lo] < Numbers(e)[k] < Numbers(e)[hi]
    ensures BatchTags(e).Err? && BatchTags(e).error.NoMedia?
  {
    var ids := PlateIds(e);
    var nums := Numbers(e);
    var media := MediaMap(nums).value;
    var n := |e.plates|;
    BatchTagsUnfold(e);
    assert nums[lo] in nums && nums[lo] < nums[k];
    assert nums[hi] in nums && nums[k] < nums[hi];
    MediaByRank(nums, nums[k]);
    assert nums[k] !in media;
    TagPlatesResult(e, ids, nums, media, n);
    NoMediaOnly(e, ids, nums, media, n);
  }

  /** The only error the inner loop raises is the missing media. */
  lemma {:induction false} NoMediaOnly(e: BatchEntry, ids: seq<string>, nums: seq<nat>, media: map<nat, string>, j: nat)
    requires |ids| == |e.plates| && |nums| == |e.plates| && j <= |e.plates|
    ensures TagPlates(e, ids, nums, media, j).Err? ==> TagPlates(e, ids, nums, media, j).error.NoMedia?
  {
    if j > 0 {
      NoMediaOnly(e, ids, nums, media, j - 1);
    }
  }

  /** A batch directory that goes through has every plate numbered, at least one plate, and each
      plate tagged in order with the batch name and its id: the largest number as DEX, any other
      number as DMSO, and that other number is then the smallest. */
  lemma BatchOk(e: BatchEntry)
    requires e.isDir && BatchTags(e).Ok?
    ensures AllNumbered(e) && |e.plates| > 0
    ensures |BatchTags(e).value| == |e.plates|
    ensures forall k :: 0 <= k < |e.plates| ==>
              && BatchTags(e).value[k].batch == e.name
              && BatchTags(e).value[k].plate == PlateId(e.plates[k].name)
              && (|| (IsLargest(Numbers(e), k) && BatchTags(e).value[k].media == DEX)
                  || (!IsLargest(Numbers(e), k) && IsSmallest(Numbers(e), k) && BatchTags(e).value[k].media == DMSO))
  {
    if !AllNumbered(e) {
      BatchBadId(e);
    }
    if |e.plates| == 0 {
      BatchEmpty(e);
    }
    var ids, nums := PlateIds(e), Numbers(e);
    var media := MediaMap(nums).value;
    var n := |e.plates|;
    BatchTagsUnfold(e);
    var tags := BatchTags(e).value;
    assert tags == TagPlates(e, ids, nums, media, n).value;
    TagPlatesResult(e, ids, nums, media, n);
    forall k | 0 <= k < n
      ensures tags[k].batch == e.name && tags[k].plate == PlateId(e.plates[k].name)
      ensures || (IsLargest(nums, k) && tags[k].media == DEX)
              || (!IsLargest(nums, k) && IsSmallest(nums, k) && tags[k].media == DMSO)
    {
      assert tags[k] == Tag(e.name, ids[k], media[nums[k]]);
      PlateMedia(nums, k);
    }
  }

  /** The converse of BatchOk: a batch directory whose plate ids are all numbers goes through
      when it has a plate and each plate's number is the largest or the smallest of the batch. */
  lemma BatchTagged(e: BatchEntry)
    requires e.isDir && AllNumbered(e) && |e.plates| > 0
    requires forall k :: 0 <= k < |e.plates| ==> IsLargest(Numbers(e), k) || IsSmallest(Numbers(e), k)
    ensures BatchTags(e).Ok?
  {
    var ids, nums := PlateIds(e), Numbers(e);
    var media := MediaMap(nums).value;
    BatchTagsUnfold(e);
    forall k | 0 <= k < |e.plates| ensures nums[k] in media {
      RankHasMedia(nums, k);
    }
    TagPlatesResult(e, ids, nums, media, |e.plates|);
  }

  /** The largest and the smallest number of a batch have a media. */
  lemma RankHasMedia(nums: seq<nat>, k: nat)
    requires k < |nums| && (IsLargest(nums, k) || IsSmallest(nums, k))
    ensures nums[k] in MediaMap(nums).value
  {
    RankCases(nums, k);
    MediaByRank(nums, nums[k]);
    if !IsLargest(nums, k) {
      var x :| 0 <= x < |nums| && nums[k] < nums[x];
      assert nums[x] in nums;
    }
  }

  lemma BatchTagsUnfold(e: BatchEntry)
    requires e.isDir && AllNumbered(e) && |e.plates| > 0
    ensures BatchTags(e) == TagPlates(e, PlateIds(e), Numbers(e), MediaMap(Numbers(e)).value, |e.plates|)
  {
    var ids := PlateIds(e);
    forall k | 0 <= k < |ids| ensures PlateNumber(ids[k]).Some? {
      assert ids[k] == PlateId(e.plates[k].name);
    }
    var nums := PlateNumbers(ids).value;
    assert nums == Numbers(e);
    assert MediaMap(nums).Some?;
  }

  /** The media of the k-th plate, when it has one, by its rank among the batch's numbers. */
  lemma PlateMedia(nums: seq<nat>, k: nat)
    requires k < |nums| && nums[k] in MediaMap(nums).value
    ensures || (IsLargest(nums, k) && MediaMap(nums).value[nums[k]] == DEX)
            || (!IsLargest(nums, k) && IsSmallest(nums, k) && MediaMap(nums).value[nums[k]] == DMSO)
  {
    MediaByRank(nums, nums[k]);
    RankCases(nums, k);
  }

  /** Rewrites the rank conditions of MediaByRank in terms of positions. */
  lemma RankCases(nums: seq<nat>, k: nat)
    requires k < |nums|
    ensures (forall x :: x in nums ==> x <= nums[k]) <==> (forall x :: 0 <= x < |nums| ==> nums[x] <= nums[k])
    ensures (forall x :: x in nums ==> nums[k] <= x) <==> (forall x :: 0 <= x < |nums| ==> nums[k] <= nums[x])
    ensures (exists x :: x in nums && x < nums[k]) <==> (exists x :: 0 <= x < |nums| && nums[x] < nums[k])
    ensures (exists x :: x in nums && nums[k] < x) <==> (exists x :: 0 <= x < |nums| && nums[k] < nums[x])
  {
    if forall x :: 0 <= x < |nums| ==> nums[x] <= nums[k] {
      forall x | x in nums ensures x <= nums[k] {
        var i :| 0 <= i < |nums| && nums[i] == x;
      }
    }
    if forall x :: 0 <= x < |nums| ==> nums[k] <= nums[x] {
      forall x | x in nums ensures nums[k] <= x {
        var i :| 0 <= i < |nums| && nums[i] == x;
      }
    }
    if forall x :: x in nums ==> x <= nums[k] {
      forall x | 0 <= x < |nums| ensures nums[x] <= nums[k] {
        assert nums[x] in nums;
      }
    }
    if forall x :: x in nums ==> nums[k] <= x {
      forall x | 0 <= x < |nums| ensures nums[k] <= nums[x] {
        assert nums[x] in nums;
      }
    }
  }

  // ---------------------------------------------------------------------------------------------
  // The loop over batch directories

  /** Running the batches in turn: the first failing batch ends the run; otherwise their results
      are chained in order. */
  function Chain<T>(results: seq<Result<seq<T>, Error>>): (r: Result<seq<T>, Error>)
    ensures |results| == 0 ==> r == Ok([])
  {
    if |results| == 0 then Ok([])
    else match Chain(results[..|results| - 1])
      case Err(err) => Err(err)
      case Ok(done) =>
        match results[|results| - 1]
        case Err(err) => Err(err)
        case Ok(more) => Ok(done + more)
  }

  /** A run goes through exactly when every batch does. */
  lemma {:induction false} ChainOk<T>(results: seq<Result<seq<T>, Error>>)
    ensures Chain(results).Ok? <==> forall i :: 0 <= i < |results| ==> results[i].Ok?
  {
    if |results| > 0 {
      var init := results[..|results| - 1];
      ChainOk(init);
      assert forall i :: 0 <= i < |init| ==> init[i] == results[i];
    }
  }

  /** A failed run reports the error of its first failing batch. */
  lemma {:induction false} ChainFirstError<T>(results: seq<Result<seq<T>, Error>>)
    requires Chain(results).Err?
    ensures exists i :: && 0 <= i < |results| && results[i].Err? && Chain(results).error == results[i].error
                        && forall j :: 0 <= j < i ==> results[j].Ok?
  {
    var init := results[..|results| - 1];
    if Chain(init).Err? {
      ChainFirstError(init);
      var i :| && 0 <= i < |init| && init[i].Err? && Chain(init).error == init[i].error
               && forall j :: 0 <= j < i ==> init[j].Ok?;
      assert results[i] == init[i];
      assert forall j :: 0 <= j < i ==> results[j] == init[j];
    } else {
      ChainOk(init);
      assert forall j :: 0 <= j < |init| ==> results[j] == init[j];
    }
  }

  /** One more batch after a run that went through so far. */
  lemma ChainStep<T>(results: seq<Result<seq<T>, Error>>, i: nat, done: seq<T>)
    requires i < |results| && Chain(results[..i]) == Ok(done)
    ensures results[i].Err? ==> Chain(results[..i + 1]) == Err(results[i].error)
    ensures results[i].Ok? ==> Chain(results[..i + 1]) == Ok(done + results[i].value)
  {
    assert results[..i + 1][..i] == results[..i];
  }

  /** A failed batch ends the run: the batches after it change nothing. */
  lemma {:induction false} ChainErrorStays<T>(results: seq<Result<seq<T>, Error>>, n: nat)
    requires n <= |results| && Chain(results[..n]).Err?
    ensures Chain(results) == Chain(results[..n])
    decreases |results|
  {
    if n < |results| {
      assert results[..|results| - 1][..n] == results[..n];
      ChainErrorStays(results[..|results| - 1], n);
    } else {
      assert results[..n] == results;
    }
  }

  /** The plate tables the loop reads, batch directory after batch directory. */
  function Listing(entries: seq<BatchEntry>): (profiles: seq<Frame>)
    ensures ValidListing(entries) ==> AllValid(profiles)
  {
    if |entries| == 0 then []
    else
      assert ValidListing(entries) ==> ValidListing(entries[..|entries| - 1]);
      Listing(entries[..|entries| - 1]) + DirPlates(entries[|entries| - 1])
  }

  /** Each plate table tagged with its tags. */
  function TagAll(profiles: seq<Frame>, tags: seq<Tag>): (frames: seq<Frame>)
    requires AllValid(profiles) && |tags| == |profiles|
    ensures |frames| == |tags| && AllValid(frames)
    ensures forall k :: 0 <= k < |frames| ==> frames[k].height == profiles[k].height
  {
    seq(|tags|, k requires 0 <= k < |tags| => TagPlate(profiles[k], tags[k]))
  }

  lemma TagAllAppend(p: seq<Frame>, q: seq<Frame>, s: seq<Tag>, t: seq<Tag>)
    requires AllValid(p) && AllValid(q) && |s| == |p| && |t| == |q|
    ensures AllValid(p + q)
    ensures TagAll(p + q, s + t) == TagAll(p, s) + TagAll(q, t)
  {
    var left, right := TagAll(p + q, s + t), TagAll(p, s) + TagAll(q, t);
    forall k | 0 <= k < |left| ensures left[k] == right[k] {
      if k < |p| {
        assert (p + q)[k] == p[k] && (s + t)[k] == s[k];
      } else {
        assert (p + q)[k] == q[k - |p|] && (s + t)[k] == t[k - |p|];
      }
    }
  }

  lemma PrefixStep<T>(s: seq<T>, j: nat)
    requires j < |s|
    ensures s[..j + 1] == s[..j] + [s[j]]
  {
  }

  lemma TagAllHeight(profiles: seq<Frame>, tags: seq<Tag>)
    requires AllValid(profiles) && |tags| == |profiles|
    ensures TotalHeight(TagAll(profiles, tags)) == TotalHeight(profiles)
  {
    SameHeights(TagAll(profiles, tags), profiles);
  }

  /** The tables one entry of the outer loop appends to `dfs`. */
  function BatchFrames(e: BatchEntry): (r: Result<seq<Frame>, Error>)
    requires ValidBatch(e)
    ensures r.Ok? ==> |r.value| == |DirPlates(e)| && AllValid(r.value)
  {
    match BatchTags(e)
    case Err(err) => Err(err)
    case Ok(tags) => Ok(TagAll(DirPlates(e), tags))
  }

  /** Lines 15-26 for one entry: a non-directory is skipped; a batch directory's plate numbers and
      media map are computed before its plate files are read. */
  method TagBatch(e: BatchEntry) returns (r: Result<seq<Frame>, Error>)
    requires ValidBatch(e)
    ensures r == BatchFrames(e)
  {
    if !e.isDir {
      return Ok([]);
    }
    var ids := PlateIds(e);
    var numbers := PlateNumbers(ids);
    if numbers.Err? {
      return Err(numbers.error);
    }
    var nums := numbers.value;
    var treatments := MediaMap(nums);
    if treatments.None? {
      return Err(EmptyBatch(e.name));
    }
    r := TagPlateFiles(e, ids, nums, treatments.value);
  }

  /** The tagged tables of a batch directory once its plate ids, numbers and media map are known. */
  function PlateFrames(e: BatchEntry, ids: seq<string>, nums: seq<nat>, media: map<nat, string>)
    : (r: Result<seq<Frame>, Error>)
    requires ValidBatch(e) && e.isDir && |ids| == |e.plates| && |nums| == |e.plates|
  {
    match TagPlates(e, ids, nums, media, |e.plates|)
    case Err(err) => Err(err)
    case Ok(tags) => Ok(TagAll(DirPlates(e), tags))
  }

  /** Lines 27-34: each plate file's table is tagged with the batch name, its plate id and its
      number's media, and appended; a number without media raises the KeyError. */
  method TagPlateFiles(e: BatchEntry, ids: seq<string>, nums: seq<nat>, media: map<nat, string>)
    returns (r: Result<seq<Frame>, Error>)
    requires ValidBatch(e) && e.isDir && |ids| == |e.plates| && |nums| == |e.plates|
    ensures r == PlateFrames(e, ids, nums, media)
  {
    ghost var profiles := DirPlates(e);
    var dfs: seq<Frame> := [];
    ghost var tags: seq<Tag> := [];
    var j := 0;
    while j < |e.plates|
      invariant 0 <= j <= |e.plates|
      invariant TagPlates(e, ids, nums, media, j) == Ok(tags)
      invariant dfs == TagAll(profiles[..j], tags)
    {
      var m := MediaOf(media, nums[j]);
      if m.None? {
        TagPlatesErrorStays(e, ids, nums, media, j + 1, |e.plates|);
        return Err(NoMedia(ids[j]));
      }
      var t := Tag(e.name, ids[j], m.value);
      var df := TagPlate(e.plates[j].profile, t);
      TagPlateFilesStep(e, ids, nums, media, j, tags, dfs);
      dfs := dfs + [df];
      tags := tags + [t];
      j := j + 1;
    }
    assert profiles[..j] == profiles;
    return Ok(dfs);
  }

  /** One iteration of the loop over a batch's plate files. */
  lemma TagPlateFilesStep(e: BatchEntry, ids: seq<string>, nums: seq<nat>, media: map<nat, string>, j: nat,
                          tags: seq<Tag>, dfs: seq<Frame>)
    requires ValidBatch(e) && e.isDir && |ids| == |e.plates| && |nums| == |e.plates| && j < |e.plates|
    requires TagPlates(e, ids, nums, media, j) == Ok(tags) && dfs == TagAll(DirPlates(e)[..j], tags)
    requires nums[j] in media
    ensures var t := Tag(e.name, ids[j], media[nums[j]]);
      && TagPlates(e, ids, nums, media, j + 1) == Ok(tags + [t])
      && dfs + [TagPlate(e.plates[j].profile, t)] == TagAll(DirPlates(e)[..j + 1], tags + [t])
  {
    TagPlatesNext(e, ids, nums, media, j, tags);
    assert DirPlates(e)[j] == e.plates[j].profile;
    TagAllNext(DirPlates(e), j, tags, Tag(e.name, ids[j], media[nums[j]]));
  }

  /** A plate whose number has a media extends the tags of the plates before it. */
  lemma TagPlatesNext(e: BatchEntry, ids: seq<string>, nums: seq<nat>, media: map<nat, string>, j: nat, tags: seq<Tag>)
    requires |ids| == |e.plates| && |nums| == |e.plates| && j < |e.plates|
    requires TagPlates(e, ids, nums, media, j) == Ok(tags) && nums[j] in media
    ensures TagPlates(e, ids, nums, media, j + 1) == Ok(tags + [Tag(e.name, ids[j], media[nums[j]])])
  {
    assert MediaOf(media, nums[j]) == Some(media[nums[j]]);
  }

  /** Tagging one more table appends it, tagged, to the tagged tables before it. */
  lemma TagAllNext(profiles: seq<Frame>, j: nat, tags: seq<Tag>, t: Tag)
    requires AllValid(profiles) && j < |profiles| && |tags| == j
    ensures AllValid(profiles[..j]) && AllValid(profiles[..j + 1])
    ensures TagAll(profiles[..j], tags) + [TagPlate(profiles[j], t)] == TagAll(profiles[..j + 1], tags + [t])
  {
    PrefixStep(profiles, j);
    TagAllAppend(profiles[..j], [profiles[j]], tags, [t]);
    assert TagAll([profiles[j]], [t]) == [TagPlate(profiles[j], t)];
  }

  /** What each entry of the listing contributes, in loop order. */
  function BatchResults(entries: seq<BatchEntry>): (results: seq<Result<seq<Frame>, Error>>)
    requires ValidListing(entries)
    ensures |results| == |entries| && forall i :: 0 <= i < |entries| ==> results[i] == BatchFrames(entries[i])
  {
    seq(|entries|, i requires 0 <= i < |entries| => BatchFrames(entries[i]))
  }

  /** The list `dfs` the loops build. */
  function TaggedFrames(entries: seq<BatchEntry>): Result<seq<Frame>, Error>
    requires ValidListing(entries)
  {
    Chain(BatchResults(entries))
  }

  /** Lines 12-34: the loop over the batch directories, appending each one's tagged tables. */
  method CollectFrames(entries: seq<BatchEntry>) returns (r: Result<seq<Frame>, Error>)
    requires ValidListing(entries)
    ensures r == TaggedFrames(entries)
  {
    ghost var results := BatchResults(entries);
    var dfs: seq<Frame> := [];
    var i := 0;
    while i < |entries|
      invariant 0 <= i <= |entries|
      invariant Chain(results[..i]) == Ok(dfs)
    {
      assert ValidBatch(entries[i]);
      var batch := TagBatch(entries[i]);
      ChainStep(results, i, dfs);
      if batch.Err? {
        ChainErrorStays(results, i + 1);
        return Err(batch.error);
      }
      dfs := dfs + batch.value;
      i := i + 1;
    }
    assert results[..i] == results;
    return Ok(dfs);
  }

  /** The tags of every plate in loop order, or the first error. */
  function ListingTags(entries: seq<BatchEntry>): Result<seq<Tag>, Error> {
    Chain(seq(|entries|, i requires 0 <= i < |entries| => BatchTags(entries[i])))
  }

  /** The loops go through exactly when every batch directory does, and otherwise stop on the
      first batch that fails, with its error. */
  lemma TaggedFramesOutcome(entries: seq<BatchEntry>)
    requires ValidListing(entries)
    ensures TaggedFrames(entries).Ok? <==> forall i :: 0 <= i < |entries| ==> BatchTags(entries[i]).Ok?
    ensures TaggedFrames(entries).Err? ==>
              exists i :: && 0 <= i < |entries| && BatchTags(entries[i]).Err?
                          && TaggedFrames(entries).error == BatchTags(entries[i]).error
                          && forall j :: 0 <= j < i ==> BatchTags(entries[j]).Ok?
  {
    var results := BatchResults(entries);
    forall i | 0 <= i < |entries| ensures results[i].Ok? == BatchTags(entries[i]).Ok? {
      BatchOutcome(entries[i]);
    }
    ChainOk(results);
    if Chain(results).Err? {
      TaggedFramesFirstError(entries);
    }
  }

  /** A failed run reports the error of its first failing batch directory. */
  lemma TaggedFramesFirstError(entries: seq<BatchEntry>)
    requires ValidListing(entries) && TaggedFrames(entries).Err?
    ensures exists i :: && 0 <= i < |entries| && BatchTags(entries[i]).Err?
                        && TaggedFrames(entries).error == BatchTags(entries[i]).error
                        && forall j :: 0 <= j < i ==> BatchTags(entries[j]).Ok?
  {
    var results := BatchResults(entries);
    ChainFirstError(results);
    var i :| && 0 <= i < |results| && results[i].Err? && Chain(results).error == results[i].error
             && forall j :: 0 <= j < i ==> results[j].Ok?;
    assert results[i] == BatchFrames(entries[i]);
    BatchOutcome(entries[i]);
    forall j | 0 <= j < i ensures BatchTags(entries[j]).Ok? {
      assert results[j] == BatchFrames(entries[j]);
      BatchOutcome(entries[j]);
    }
  }

  /** An entry's tables are tagged exactly when its tags are computed, and fail with their error. */
  lemma BatchOutcome(e: BatchEntry)
    requires ValidBatch(e)
    ensures BatchFrames(e).Ok? == BatchTags(e).Ok?
    ensures BatchFrames(e).Err? ==> BatchFrames(e).error == BatchTags(e).error
  {
  }

  /** When the loops go through, `dfs` holds one table per plate file of every batch directory,
      in order, each tagged with its plate's tags and with that plate's rows. */
  lemma {:induction false} TaggedFramesContents(entries: seq<BatchEntry>)
    requires ValidListing(entries) && TaggedFrames(entries).Ok?
    ensures ListingTags(entries).Ok?
    ensures |ListingTags(entries).value| == |Listing(entries)|
    ensures TaggedFrames(entries).value == TagAll(Listing(entries), ListingTags(entries).value)
  {
    if |entries| > 0 {
      var n := |entries|;
      var init, last := entries[..n - 1], entries[n - 1];
      assert ValidListing(init) && ValidBatch(last);
      TaggedFramesLast(entries);
      TaggedFramesContents(init);
      ListingTagsLast(entries);
      assert Listing(entries) == Listing(init) + DirPlates(last);
      TagAllAppend(Listing(init), DirPlates(last), ListingTags(init).value, BatchTags(last).value);
    }
  }

  /** The tables of a listing that goes through are those of all but its last entry, then the
      last entry's. */
  lemma TaggedFramesLast(entries: seq<BatchEntry>)
    requires ValidListing(entries) && |entries| > 0 && TaggedFrames(entries).Ok?
    ensures var init, last := entries[..|entries| - 1], entries[|entries| - 1];
      && ValidListing(init) && ValidBatch(last)
      && TaggedFrames(init).Ok? && BatchTags(last).Ok?
      && TaggedFrames(entries).value == TaggedFrames(init).value + TagAll(DirPlates(last), BatchTags(last).value)
  {
    var n := |entries|;
    var init, last := entries[..n - 1], entries[n - 1];
    assert ValidListing(init) && ValidBatch(last);
    var results := BatchResults(entries);
    assert results[..n - 1] == BatchResults(init);
    assert TaggedFrames(init).Ok? && results[n - 1].Ok?;
  }

  /** The tags of a listing are those of all but its last entry, then the last entry's. */
  lemma ListingTagsLast(entries: seq<BatchEntry>)
    requires |entries| > 0
    requires ListingTags(entries[..|entries| - 1]).Ok? && BatchTags(entries[|entries| - 1]).Ok?
    ensures ListingTags(entries) ==
              Ok(ListingTags(entries[..|entries| - 1]).value + BatchTags(entries[|entries| - 1]).value)
  {
    var n := |entries|;
    var init := entries[..n - 1];
    var tagResults := seq(n, i requires 0 <= i < n => BatchTags(entries[i]));
    assert tagResults[..n - 1] == seq(n - 1, i requires 0 <= i < n - 1 => BatchTags(init[i]));
  }

  /** The tagged tables hold exactly the rows of all plate files. */
  lemma TaggedFramesHeight(entries: seq<BatchEntry>)
    requires ValidListing(entries) && TaggedFrames(entries).Ok?
    ensures TotalHeight(TaggedFrames(entries).value) == TotalHeight(Listing(entries))
  {
    TaggedFramesContents(entries);
    TagAllHeight(Listing(entries), ListingTags(entries).value);
  }

  /** `pd.concat(dfs, ignore_index=True)`: fails on an empty list. */
  function Combine(frames: seq<Frame>): (r: Result<Frame, Error>)
    requires AllValid(frames)
    ensures r.Err? <==> |frames| == 0
    ensures r.Err? ==> r.error == NothingToConcat
    ensures r.Ok? ==> Valid(r.value) && r.value.height == TotalHeight(frames)
  {
    if |frames| == 0 then Err(NothingToConcat) else Ok(Concat(frames))
  }

  /** The rows of the k-th tagged table keep their batch, plate and media in the combined table. */
  lemma CombinedRowsTagged(frames: seq<Frame>, tags: seq<Tag>, k: nat, i: nat)
    requires AllValid(frames) && |tags| == |frames|
    requires forall x :: 0 <= x < |frames| ==> Tagged(frames[x], tags[x])
    requires k < |frames| && i < frames[k].height
    ensures var c := Concat(frames); var row := Offset(frames, k) + i;
      && row < c.height
      && Get(c, BATCH).Some? && Get(c, BATCH).value[row] == TextCell(tags[k].batch)
      && Get(c, PLATE).Some? && Get(c, PLATE).value[row] == TextCell(tags[k].plate)
      && Get(c, MEDIA).Some? && Get(c, MEDIA).value[row] == TextCell(tags[k].media)
  {
    assert Tagged(frames[k], tags[k]);
    ConcatRow(frames, BATCH, k, i);
    ConcatRow(frames, PLATE, k, i);
    ConcatRow(frames, MEDIA, k, i);
  }

}

=== FILE: reorder.dfy ===
/** The last step of the profile combiner before writing (lines 63-65): the metadata columns,
    those whose name starts with "Metadata_", are moved to the front. */
module Reorder {
  import opened Text
  import opened Frames
  import opened Columns

  predicate IsMetadata(c: Column) {
    StartsWith(c.name, METADATA_PREFIX)
  }

  /** `df[metadata_cols + other_cols]`: the two list comprehensions keep the frame's column order,
      and selecting by distinct names picks those columns. */
  function MetadataFirst(f: Frame): (r: Frame)
    requires Valid(f)
    ensures Valid(r) && r.height == f.height
    ensures multiset(r.columns) == multiset(f.columns)
    ensures forall i, j :: 0 <= i < j < |r.columns| && IsMetadata(r.columns[j]) ==> IsMetadata(r.columns[i])
    ensures Filter(r.columns, IsMetadata) == Filter(f.columns, IsMetadata)
    ensures Filter(r.columns, Not(IsMetadata)) == Filter(f.columns, Not(IsMetadata))
  {
    var meta, other := Filter(f.columns, IsMetadata), Filter(f.columns, Not(IsMetadata));
    var cols := meta + other;
    FilterSplitsMultiset(f.columns, IsMetadata);
    FilterSplit(f.columns, IsMetadata);
    PartitionOrdered(f);
    PartitionValid(f);
    Frame(f.height, cols)
  }

  /** Filtering the partition by either side of the test gives back that side. */
  lemma FilterSplit(s: seq<Column>, p: Column -> bool)
    ensures Filter(Filter(s, p) + Filter(s, Not(p)), p) == Filter(s, p)
    ensures Filter(Filter(s, p) + Filter(s, Not(p)), Not(p)) == Filter(s, Not(p))
  {
    var yes, no := Filter(s, p), Filter(s, Not(p));
    FilterAppend(yes, no, p);
    FilterAppend(yes, no, Not(p));
    FilterTwice(s, p);
    FilterTwice(s, Not(p));
    FilterDropsAll(yes, Not(p));
    FilterDropsAll(no, p);
  }

  /** Nothing is kept when no element passes. */
  lemma {:induction false} FilterDropsAll(s: seq<Column>, p: Column -> bool)
    requires forall x :: x in s ==> !p(x)
    ensures Filter(s, p) == []
  {
    if |s| > 0 {
      assert s[0] in s;
      FilterDropsAll(s[1..], p);
    }
  }

  /** Every metadata column of the partition comes before every other column. */
  lemma PartitionOrdered(f: Frame)
    ensures var cols := Filter(f.columns, IsMetadata) + Filter(f.columns, Not(IsMetadata));
      forall i, j :: 0 <= i < j < |cols| && IsMetadata(cols[j]) ==> IsMetadata(cols[i])
  {
    var meta, other := Filter(f.columns, IsMetadata), Filter(f.columns, Not(IsMetadata));
    var cols := meta + other;
    forall k | 0 <= k < |meta| ensures IsMetadata(cols[k]) {
      assert cols[k] == meta[k];
      assert cols[k] in meta;
    }
    forall k | |meta| <= k < |cols| ensures !IsMetadata(cols[k]) {
      assert cols[k] == other[k - |meta|];
      assert cols[k] in other;
    }
  }

  /** Putting the passing columns before the failing ones keeps a frame valid: the two sides
      are valid on their own, and a name that passes differs from one that fails. */
  lemma PartitionValid(f: Frame)
    requires Valid(f)
    ensures Valid(Frame(f.height, Filter(f.columns, IsMetadata) + Filter(f.columns, Not(IsMetadata))))
  {
    var meta, other := Filter(f.columns, IsMetadata), Filter(f.columns, Not(IsMetadata));
    var cols := meta + other;
    FilterUnique(f.columns, IsMetadata);
    FilterUnique(f.columns, Not(IsMetadata));
    forall i, j | 0 <= i < j < |cols| ensures cols[i].name != cols[j].name {
      if j < |meta| {
        assert cols[i] == meta[i] && cols[j] == meta[j];
        NamesDiffer(meta, i, j);
      } else if i >= |meta| {
        assert cols[i] == other[i - |meta|] && cols[j] == other[j - |meta|];
        NamesDiffer(other, i - |meta|, j - |meta|);
      } else {
        assert cols[i] == meta[i] && cols[j] == other[j - |meta|];
        assert cols[i] in meta && cols[j] in other;
      }
    }
  }

  /** Reordering twice is reordering once. */
  lemma MetadataFirstIdempotent(f: Frame)
    requires Valid(f)
    ensures MetadataFirst(MetadataFirst(f)) == MetadataFirst(f)
  {
  }

  /** Only the column order changes: every column reads as before, so no row changes. */
  lemma MetadataFirstKeepsColumns(f: Frame, name: string)
    requires Valid(f)
    ensures Get(MetadataFirst(f), name) == Get(f, name)
  {
    var r := MetadataFirst(f);
    assert forall c :: c in r.columns <==> c in f.columns by {
      forall c ensures c in r.columns <==> c in f.columns {
        assert c in r.columns <==> c in multiset(r.columns);
        assert c in f.columns <==> c in multiset(f.columns);
      }
    }
    if HasColumn(f, name) {
      GetMember(r, Column(name, Get(f, name).value));
    }
  }
}

=== FILE: text.dfy ===
/** The string operations the scripts use, written out the way Python performs them. */
module Text {
  import opened Wrappers

  /** `s.startswith(prefix)` */
  predicate StartsWith(s: string, prefix: string) {
    |prefix| <= |s| && s[..|prefix|] == prefix
  }

  /** `s.endswith(suffix)` */
  predicate EndsWith(s: string, suffix: string) {
    |suffix| <= |s| && s[|s| - |suffix|..] == suffix
  }

  /** `sub in s`: some position of `s` starts an occurrence of `sub`. */
  predicate Contains(s: string, sub: string)
    decreases |s|
  {
    StartsWith(s, sub) || (|s| > 0 && Contains(s[1..], sub))
  }

  /** A string that starts with `p` contains every prefix of `p`; in particular a name that starts
      with "Metadata_" contains "Metadata". */
  lemma PrefixIsContained(s: string, p: string, q: string)
    requires StartsWith(s, p) && StartsWith(p, q)
    ensures Contains(s, q)
  {
    assert s[..|q|] == p[..|q|];
  }

  /** `s.split(sep)[0]`: the text before the first `sep`, or all of `s` when there is none. */
  function BeforeFirst(s: string, sep: char): (r: string)
    ensures |r| <= |s| && r == s[..|r|]
    ensures sep !in r
    ensures |r| < |s| ==> s[|r|] == sep
  {
    if |s| == 0 || s[0] == sep then [] else [s[0]] + BeforeFirst(s[1..], sep)
  }

  /** The three properties of BeforeFirst determine it: a prefix free of `sep` that is followed by
      `sep` (or is everything) is the text before the first `sep`. */
  lemma BeforeFirstUnique(s: string, sep: char, r: string)
    requires |r| <= |s| && r == s[..|r|] && sep !in r
    requires |r| < |s| ==> s[|r|] == sep
    ensures BeforeFirst(s, sep) == r
  {
  }

  /** `s.rfind(c)`: the index of the last `c`, or -1 when `s` has none. */
  function LastIndexOf(s: string, c: char): (r: int)
    ensures -1 <= r < |s|
    ensures r >= 0 ==> s[r] == c
    ensures forall k :: r < k < |s| ==> s[k] != c
  {
    if |s| == 0 then -1
    else if s[|s| - 1] == c then |s| - 1
    else LastIndexOf(s[..|s| - 1], c)
  }

  /** An occurrence of `c` with none after it is the one `rfind` finds. */
  lemma LastIndexOfAt(s: string, c: char, i: nat)
    requires i < |s| && s[i] == c
    requires forall k :: i < k < |s| ==> s[k] != c
    ensures LastIndexOf(s, c) == i
  {
  }

  /** `s.replace("BR", "")`: one left-to-right scan that deletes each non-overlapping "BR" it meets. */
  function DropBR(s: string): (r: string)
    ensures |r| <= |s|
    decreases |s|
  {
    if |s| == 0 then []
    else if |s| >= 2 && s[0] == 'B' && s[1] == 'R' then DropBR(s[2..])
    else [s[0]] + DropBR(s[1..])
  }

  /** A string without the letter B has no "BR" to delete. */
  lemma {:induction false} DropBRWithoutB(s: string)
    requires 'B' !in s
    ensures DropBR(s) == s
    decreases |s|
  {
    if |s| > 0 {
      assert 'B' !in s[1..];
      DropBRWithoutB(s[1..]);
    }
  }

  /** The scan works piecewise: cutting the input after a character other than B cuts no "BR". */
  lemma {:induction false} DropBRAppend(x: string, y: string)
    requires |x| == 0 || x[|x| - 1] != 'B'
    ensures DropBR(x + y) == DropBR(x) + DropBR(y)
    decreases |x|
  {
    var xy := x + y;
    if |x| == 0 {
      assert xy == y;
    } else if |x| >= 2 && x[0] == 'B' && x[1] == 'R' {
      assert xy[0] == 'B' && xy[1] == 'R';
      assert xy[2..] == x[2..] + y;
      DropBRAppend(x[2..], y);
    } else if |x| == 1 {
      assert xy[0] == x[0] != 'B';
      assert xy[1..] == y;
      assert DropBR(x) == [x[0]] + DropBR(x[1..]);
    } else {
      assert xy[0] == x[0] && xy[1] == x[1];
      assert xy[1..] == x[1..] + y;
      DropBRAppend(x[1..], y);
    }
  }

  /** The scan does not re-examine its own output: "BBRR" loses its middle "BR" only. */
  lemma DropBRSinglePass()
    ensures DropBR("BBRR") == "BR"
  {
    assert "BBRR"[1..] == "BRR";
    assert "BRR"[2..] == "R";
  }

  predicate IsDigit(c: char) {
    '0' <= c <= '9'
  }

  predicate AllDigits(s: string) {
    forall k :: 0 <= k < |s| ==> IsDigit(s[k])
  }

  function DigitValue(c: char): (d: nat)
    requires IsDigit(c)
    ensures d < 10
  {
    c as int - '0' as int
  }

  function DigitChar(d: nat): (c: char)
    requires d < 10
    ensures IsDigit(c) && DigitValue(c) == d
  {
    ('0' as int + d) as char
  }

  /** The value of a decimal numeral, read from the left. */
  function DecimalValue(s: string): nat
    requires AllDigits(s)
  {
    if |s| == 0 then 0 else 10 * DecimalValue(s[..|s| - 1]) + DigitValue(s[|s| - 1])
  }

  /** `int(s)` restricted to plain decimal numerals: `None` is the ValueError. */
  function ParseDecimal(s: string): (r: Option<nat>)
    ensures r.Some? <==> |s| > 0 && AllDigits(s)
  {
    if |s| > 0 && AllDigits(s) then Some(DecimalValue(s)) else None
  }

  /** `str(n)` for a natural number. */
  function ShowDecimal(n: nat): (s: string)
    ensures |s| > 0 && AllDigits(s)
  {
    if n < 10 then [DigitChar(n)] else ShowDecimal(n / 10) + [DigitChar(n % 10)]
  }

  /** Parsing undoes printing: `int(str(n)) == n`. */
  lemma {:induction false} ParseShowDecimal(n: nat)
    ensures ParseDecimal(ShowDecimal(n)) == Some(n)
  {
    if n >= 10 {
      var s := ShowDecimal(n);
      assert s[..|s| - 1] == ShowDecimal(n / 10);
      ParseShowDecimal(n / 10);
      assert DecimalValue(s[..|s| - 1]) == n / 10;
      assert DigitValue(s[|s| - 1]) == n % 10;
    } else {
      var s := ShowDecimal(n);
      assert s == [DigitChar(n)] && s[..0] == [];
      assert DecimalValue(s) == 10 * DecimalValue([]) + DigitValue(s[0]) == n;
    }
  }

  /** A run of `k` zero digits. */
  function Zeros(k: nat): (s: string)
    ensures |s| == k && AllDigits(s)
  {
    seq(k, _ => '0')
  }

  /** Leading zeros do not change the value: `int("007") == 7`. */
  lemma {:induction false} ZerosValue(k: nat, s: string)
    requires AllDigits(s)
    ensures DecimalValue(Zeros(k) + s) == DecimalValue(s)
    decreases |s|, k
  {
    var t := Zeros(k) + s;
    if |s| > 0 {
      assert t[..|t| - 1] == Zeros(k) + s[..|s| - 1];
      ZerosValue(k, s[..|s| - 1]);
    } else if k > 0 {
      assert t == Zeros(k);
      assert t[..|t| - 1] == Zeros(k - 1) + [];
      ZerosValue(k - 1, []);
    }
  }
}

=== FILE: wrappers.dfy ===
/** Optional values and results with an error, used for Python's missing values and exceptions. */
module Wrappers {

  /** A value that may be absent (a missing cell, a failed parse, an empty input). */
  datatype Option<+T> = None | Some(value: T)

  /** The outcome of a step that can raise: `Err` stands for the exception that aborts the script. */
  datatype Result<+T, +E> = Ok(value: T) | Err(error: E)
}
